=== FILE: README.md ===
# Authentication server of a MERN school-management application, in Dafny

This project models the authentication core of an Express/Mongoose server:
- the `User` schema and its collection;
- the `userAuth` cookie middleware;
- the eight handlers of `authController` (register, login, logout, is-auth,
  send-verify-otp, verify-email, send-reset-otp, reset-password) and the route table that
  places them behind or in front of the middleware.

Each handler is a pure function. It takes:
- the collection (`UserModel.Store`);
- the process configuration (`JWT_SECRET`, database readiness);
- the request body fields, as `Option<string>` so that `undefined` is expressible;
- the clock, plus what the libraries would have drawn at random (the point
  `Math.random` lands on, bcrypt's salt) and whether an awaited mail went out.

It returns the reply (status, `success`, message, body, cookie effect) together with the
collection after the request.

Modules, in dependency order:
- `Base`: option and result types, record ids, and JavaScript truthiness of strings.
- `Text`: `String.prototype.trim`, the lower-casing Mongoose applies to emails, the UTF-16
  `length` of a string, and `Number.prototype.toString` for the six-digit codes.
- `Crypto`: bcrypt and jsonwebtoken reduced to their contracts.
  - bcrypt keys on the first 72 bytes of the password's UTF-8 encoding (section 3 of
    RFC 3629). A digest matches every password with the same key, so passwords of at
    most 72 bytes match exactly their own digest.
  - A token carries its payload, its key and its `exp` in whole seconds.
  - Verification succeeds only under the signing key, before `exp`.
- `UserModel`: the schema.
  - Setters, required paths and defaults.
  - Email normalisation and the unique email and `_id` indexes.
  - `findOne`, `findById`, `create` and `save`.
- `Http`: the reply shape and the exceptions the `catch` blocks turn into 500s.
- `UserAuth`: the middleware.
- `AuthController`: the OTP helpers and the eight handlers.
- `AuthRouter`: the route table, and the browser's cookie jar that carries `token` from one
  request to the next.
- `StoreInvariants`: what every request preserves.
- `AuthProperties`: properties that relate several requests.

Behaviour that follows the code and is easy to miss:
- **Lookups normalise the query.** Mongoose runs the `lowercase` and `trim` setters on query
  filters. So `findOne({ email })` finds a user whatever the case or surrounding whitespace
  of the query.
- **Whitespace-only name or email at registration.** The value passes the handler's `!x`
  check. After the `trim` setter, Mongoose's `required` check fails, so the reply is a 500
  and nothing is stored.
- **Missing `JWT_SECRET`.**
  - Registration answers 500 before touching the database.
  - Login answers 500 from `jwt.sign`, and only after the credentials were accepted.
  - The middleware answers 401 to every protected request.
- **Reset failures that surface as 500.**
  - `resetPassword` with a reset code stored but no `otp` in the body throws in
    `otp.toString()`.
  - `resetPassword` whose code checks pass but with no `newPassword` throws in bcrypt,
    before anything is saved, so the code is not consumed.
  - `sendResetOtp` awaits the mail. A failed delivery is a 500 that leaves the new code
    stored.
- **Code-format check.** Verification checks only that the code's `length` is six. It
  does not check that they are digits, and `length` counts UTF-16 code units: a character
  outside the Basic Multilingual Plane counts twice (`AuthProperties.VerifyEmailCountsCodeUnits`).
- **Expiry boundary.** An expired code is one whose expiry is strictly before the current
  time. A code is still accepted at its last millisecond.

- **Logout from the same browser twice.** Logout is a protected route
  (Server/routes/authRouter.js:65). Once the first logout has cleared the cookie, a second
  one is refused by the middleware with 401 (`AuthProperties.LogoutEndsBrowserSession`).
  The handler itself is idempotent (`AuthProperties.LogoutIdempotent`). Logout does not
  revoke the token: replaying the old token behaves as if no logout had happened
  (`AuthProperties.LogoutDoesNotRevoke`).
- **Reset endpoints fail with 500 as well as 400/404.** The cases are the ones listed
  above.
- **Error messages reach the client.** The `catch` blocks send `error.message`, which the
  model keeps as `Thrown(fault)`.

## Model

| member | source | states |
|---|---|---|
| Text.Trim | Server/models/UserModel.js:8 | the trimmed value is a slice of the input with only whitespace cut from either side, and neither of its ends is whitespace |
| Text.TrimEmptyIffAllSpace | Server/models/UserModel.js:5-9 | trimming yields the empty string exactly when the input is all whitespace, which is when the required name path fails |
| Text.TrimIdempotent | Server/models/UserModel.js:8 | trimming an already trimmed value changes nothing |
| Text.TrimLowerCommute | Server/models/UserModel.js:15-16 | the lowercase and trim setters of the email path give the same result in either order |
| Text.Lower | Server/models/UserModel.js:15 | the lower-cased email has the input's length and no upper-case ASCII letter |
| Text.LowerMeaning | Server/models/UserModel.js:15 | lower-casing maps each upper-case ASCII letter to its lower-case form and keeps every other character, so a string without upper-case letters is unchanged |
| Text.JsLength | Server/controllers/authController.js:242 | a string's `length` lies between its character count and twice that, and equals the character count exactly when every character lies below U+10000 |
| Text.JsLengthAppend | Server/controllers/authController.js:242 | `length` adds up over concatenation, so each character contributes its own units (one below U+10000, two above) wherever it sits |
| Text.NatToDecimal | Server/controllers/authController.js:183 | the decimal text of a number is a non-empty string of digits with no leading zero |
| Text.DecimalRoundTrip | Server/controllers/authController.js:183 | reading back the decimal text of a number gives the number |
| Text.DecimalInjective | Server/controllers/authController.js:263 | distinct codes have distinct texts, so comparing texts compares codes |
| Text.DecimalLength | Server/controllers/authController.js:11 | a number with k significant digits prints as exactly k characters |
| Crypto.Utf8Char | Server/controllers/authController.js:117 | a character encodes in the shortest form (one byte below U+0080, two below U+0800, three below U+10000, four above), with continuation bytes in [0x80, 0xC0), a lead byte that announces the width, and bytes that decode back to the character |
| Crypto.Utf8Injective | Server/controllers/authController.js:117 | distinct passwords have distinct UTF-8 encodings |
| Crypto.Matches | Server/controllers/authController.js:117 | a password matches its own digest, and for passwords of at most 72 encoded bytes a match means the same password |
| Crypto.Hash | Server/controllers/authController.js:62 | a digest is made with cost factor 10 and matches the hashed password; when both are at most 72 encoded bytes, it matches no other password |
| Crypto.LongPasswordsCollide | Server/controllers/authController.js:117 | two passwords that share a prefix of at least 72 encoded bytes match each other's digests, whatever follows |
| Crypto.Verify | Server/middleware/userAuth.js:14 | verification yields the token's payload exactly when a key is configured, the token was signed with it and the current time is before its expiry |
| Crypto.Sign | Server/controllers/authController.js:70-74 | a session token carries the user's id and the signing key, and expires seven days after issue, rounded down to a whole second |
| Crypto.SignVerifyRoundTrip | Server/middleware/userAuth.js:13-14 | a token the server signed verifies to its own id until just under seven days after issue, and never after seven days |
| Crypto.VerifyNeedsSigningKey | Server/middleware/userAuth.js:14 | a token is rejected under any key other than the one that signed it |
| UserModel.NormalizeEmail | Server/models/UserModel.js:15-16 | a normalised email is the input with a whitespace-only prefix and suffix cut and the rest lower-cased; it has no upper-case ASCII letter and no whitespace at either end |
| UserModel.NormalizeEmailMeaning | Server/models/UserModel.js:11-18 | normalising an already normalised email changes nothing |
| UserModel.NewUser | Server/models/UserModel.js:3-55 | creation succeeds exactly when the name and the normalised email are non-empty; the document then has the trimmed name, the normalised email, the given hash, the schema defaults and a well-formed shape |
| UserModel.StoreUniqueness | Server/models/UserModel.js:11-18 | in a valid collection no two documents share a normalised email and none share an id |
| UserModel.FindOne | Server/controllers/authController.js:112 | a lookup by email finds a document exactly when one has the query's normalised form as its email, and returns that document |
| UserModel.FindById | Server/controllers/authController.js:152 | a lookup by id returns only a document with that id, and always finds one when the collection holds it |
| UserModel.Insert | Server/controllers/authController.js:64-68 | creation adds the new document under its email and leaves every other document as it was |
| UserModel.InsertPreservesValid | Server/controllers/authController.js:64-68 | creating a well-formed document under a fresh id and an unused email keeps the collection valid and grows it by exactly one |
| UserModel.Save | Server/controllers/authController.js:185 | saving replaces the one document under its key and changes nothing else |
| UserModel.SavePreservesValid | Server/controllers/authController.js:185 | saving a well-formed document that keeps its id and email keeps the collection valid |
| UserAuth.Authenticate | Server/middleware/userAuth.js:3-35 | a missing or empty cookie, a token that fails verification, and a token without an id each get their own 401; the request proceeds exactly when the token verifies to an id, with that id attached |
| UserAuth.AcceptsIssuedToken | Server/middleware/userAuth.js:13-28 | a token the server issued passes the middleware with its own id for just under seven days |
| UserAuth.NoSecretRejectsAll | Server/middleware/userAuth.js:14 | with no signing key configured every protected request is refused |
| AuthController.OtpExpiryTime | Server/controllers/authController.js:12 | a code stored at a given time is live up to and including the last millisecond of the following fifteen minutes, and expired after |
| AuthController.Expired | Server/controllers/authController.js:256 | a stored expiry is passed exactly when it lies strictly before the current time; a missing one compares as 0 |
| AuthController.PublicUserResponse | Server/controllers/authController.js:21-26 | the public projection carries the user's id, name, email and verification flag |
| AuthController.GenerateOtp | Server/controllers/authController.js:11 | a generated code lies in [100000, 1000000), and its text is six digits that read back as the code |
| AuthController.RegisterUser | Server/controllers/authController.js:32-102 | registration succeeds exactly when the fields are present, the key is configured, the database is up, the normalised email is unused and the schema accepts the document; it then adds exactly that unverified user with a hash of the password and issues its session cookie, and on every failure writes nothing |
| AuthController.LoginUser | Server/controllers/authController.js:104-139 | login never writes, and succeeds exactly when the email names a user whose hash matches the password and a key is configured; success returns the public projection and a session cookie, and failure touches neither |
| AuthController.LogoutUser | Server/controllers/authController.js:141-148 | logout answers 200, clears the cookie and writes nothing |
| AuthController.IsAuthenticated | Server/controllers/authController.js:150-164 | the session check succeeds exactly when the id names a user and returns that user's public projection, otherwise 401 "User not found" |
| AuthController.SendVerifyOtp | Server/controllers/authController.js:170-235 | a code is issued exactly for an existing unverified user, stored with an expiry fifteen minutes on; a verified account gets 400 and no write |
| AuthController.VerifyEmail | Server/controllers/authController.js:237-281 | verification succeeds exactly for a code of `length` six equal to the stored, unexpired one; success marks the account verified and clears the code, and every failure writes nothing |
| AuthController.SendResetOtp | Server/controllers/authController.js:287-312 | an unknown email gets 404 and no write; otherwise a fresh code with a fifteen-minute expiry is stored, and the reply succeeds exactly when the mail went out |
| AuthController.ResetPassword | Server/controllers/authController.js:314-339 | the reset succeeds exactly when the stored code is present, equals the one supplied, is unexpired and a new password is given; success stores a hash of the new password and clears the code, and every failure writes nothing |
| AuthRouter.IsProtected | Server/routes/authRouter.js:65-68 | the protected routes are exactly the four other than register, login, send-reset-otp and reset-password |
| AuthRouter.Handle | Server/routes/authRouter.js:56-68 | a protected route whose cookie the middleware rejects answers with the middleware's 401 and writes nothing |
| AuthRouter.PublicRoutesIgnoreCookie | Server/routes/authRouter.js:56-59 | the reply of a public route does not depend on the cookie |
| StoreInvariants.RegisterPreservesValid | Server/controllers/authController.js:57-68 | registration keeps the collection valid |
| StoreInvariants.SendVerifyOtpPreservesValid | Server/controllers/authController.js:181-185 | issuing a verification code keeps the collection valid |
| StoreInvariants.VerifyEmailPreservesValid | Server/controllers/authController.js:267-270 | verifying an email keeps the collection valid |
| StoreInvariants.SendResetOtpPreservesValid | Server/controllers/authController.js:294-298 | issuing a reset code keeps the collection valid |
| StoreInvariants.ResetPasswordPreservesValid | Server/controllers/authController.js:329-332 | resetting a password keeps the collection valid |
| StoreInvariants.HandlePreservesValid | Server/models/UserModel.js:3-55 | every request keeps the collection valid: unique normalised emails and ids, required paths present, each code paired with its expiry, stored codes of six digits, and no verification code on a verified account |
| StoreInvariants.RegisterEvolves | Server/controllers/authController.js:57-68 | registration keeps every existing user, with its id, name, email and verified flag |
| StoreInvariants.ProtectedEvolves | Server/routes/authRouter.js:65-68 | no protected route deletes, renames or un-verifies a user or changes an id |
| StoreInvariants.ResetEvolves | Server/routes/authRouter.js:58-59 | neither reset route deletes, renames or un-verifies a user or changes an id |
| StoreInvariants.HandleEvolves | Server/routes/authRouter.js:56-68 | no request deletes a user, renames one, changes an id or un-verifies an account |
| StoreInvariants.OnlyVerifyEmailVerifies | Server/controllers/authController.js:267-272 | an unverified account becomes verified only through a successful email verification |
| StoreInvariants.ProtectedOnlyVerifyEmailVerifies | Server/routes/authRouter.js:65-68 | among the protected routes, only a successful email verification verifies an account |
| AuthProperties.RegisterDuplicateConflict | Server/controllers/authController.js:57-60 | an email already taken, up to case and surrounding whitespace, gets 409 whatever the name and password, and nothing is written |
| AuthProperties.RegisterThenLogin | Server/controllers/authController.js:112-134 | after registering, login with the same email in any case succeeds exactly when the attempt matches the registered password's digest, and then returns the new user's public projection, otherwise 401; for passwords of at most 72 encoded bytes it succeeds exactly for the registered password |
| AuthProperties.RegisterThenSessionCheck | Server/controllers/authController.js:70-93 | the cookie set by registration passes the session check within its lifetime and returns the new, unverified user |
| AuthProperties.SessionCheckWithIssuedToken | Server/controllers/authController.js:150-160 | a session check with a token issued for an existing user returns that user's public projection |
| AuthProperties.RegisteredUserFoundById | Server/controllers/authController.js:64-76 | a registered user is found under the id registration gave it, and the browser then holds a token for that id |
| AuthProperties.LoginNoEnumeration | Server/controllers/authController.js:112-120 | an unknown email and a known email with a wrong password get the identical reply, and neither writes |
| AuthProperties.SessionCheckHidesSecrets | Server/controllers/authController.js:21-26 | the session check's reply does not depend on the password hash or any code of the account |
| AuthProperties.LoginHidesOtpState | Server/controllers/authController.js:130-134 | login's reply does not depend on the account's codes |
| AuthProperties.LogoutIdempotent | Server/controllers/authController.js:141-148 | logging out twice at the handler gives the same reply both times and writes nothing |
| AuthProperties.LogoutEndsBrowserSession | Server/routes/authRouter.js:65-68 | after a logout the browser's cookie is gone, so every protected route, a second logout included, is refused with 401 |
| AuthProperties.LogoutDoesNotRevoke | Server/controllers/authController.js:141-148 | replaying the pre-logout token on any route gets exactly what it would have got without the logout |
| AuthProperties.VerifyEmailCheckOrder | Server/controllers/authController.js:249-265 | for a code of `length` six and a known user, the guards run in order (no stored code, then expired, then mismatch), each with its own reply and no write |
| AuthProperties.SendThenVerify | Server/controllers/authController.js:256-272 | the code just sent verifies the account up to its last millisecond of fifteen minutes, and is reported expired after |
| AuthProperties.SendThenWrongCode | Server/controllers/authController.js:263-265 | within the window, any other code of `length` six is refused as a mismatch with no write |
| AuthProperties.VerifyEmailCountsCodeUnits | Server/controllers/authController.js:242-244 | three characters outside the Basic Multilingual Plane pass the format check, while five digits and one such character fail it |
| AuthProperties.VerifyEmailSingleUse | Server/controllers/authController.js:267-270 | a verification code works once: replaying it, at any time, finds no stored code |
| AuthProperties.VerifiedNeverGetsCode | Server/controllers/authController.js:177-179 | a verified account stays verified and never holds a verification code, whatever request comes |
| AuthProperties.VerifyEmailExample | Server/controllers/authController.js:237-272 | code 482193 sent at t0 verifies at t0 plus ten minutes, and the same code right after is refused |
| AuthProperties.ResetPasswordUniformFailure | Server/controllers/authController.js:321-327 | a missing, wrong or expired reset code all get the one reply "Invalid or expired OTP", with no write |
| AuthProperties.SendResetThenReset | Server/controllers/authController.js:294-334 | the reset code just sent works exactly within its fifteen minutes; success stores a hash of the new password and clears the code, and otherwise nothing changes |
| AuthProperties.LoginAfterPasswordChange | Server/controllers/authController.js:117-120 | after a password change the new password logs in exactly when a signing key is configured; the old one logs in exactly when, in addition, it matches the new digest (which, by `Crypto.Matches`, short passwords do only when they equal the new one), and is otherwise refused with 401 |
| AuthProperties.ResetPasswordSingleUse | Server/controllers/authController.js:330-332 | a reset code works once: replaying it gets the uniform refusal |
| AuthProperties.ResetPasswordExample | Server/controllers/authController.js:321-327 | a correct reset code presented sixteen minutes after sending is refused and the password is untouched |
| AuthProperties.VerifyChannelLeavesResetAlone | Server/controllers/authController.js:181-272 | the verification requests never change a password or a reset code |
| AuthProperties.ResetChannelLeavesVerifyAlone | Server/controllers/authController.js:294-298 | issuing a reset code never changes verification state or the password |
| AuthProperties.ResetPasswordLeavesVerifyAlone | Server/controllers/authController.js:329-332 | resetting a password never changes verification state |
| AuthProperties.VerifyEmailReadsVerifyView | Server/controllers/authController.js:246-265 | email verification's reply depends only on ids and verification codes |
| AuthProperties.ResetPasswordReadsResetView | Server/controllers/authController.js:318-327 | the reset's reply depends only on the reset codes |
| AuthProperties.ResetTrafficDoesNotAffectVerify | Server/controllers/authController.js:287-339 | requesting or using a reset code in between does not change the outcome of an email verification |
| AuthProperties.VerifyTrafficDoesNotAffectReset | Server/controllers/authController.js:170-281 | requesting or using a verification code in between does not change the outcome of a password reset |

## Left out

- Mail delivery and mail content are not modelled. `transporter.sendMail` is fire-and-forget
  in register and send-verify-otp, so it is not modelled there at all. In send-reset-otp the
  mail is awaited, so whether it went out is a parameter.
- The welcome mail, the logging, and the `/test-smtp` debugging route are not modelled.
- Timestamps (`createdAt`, `updatedAt`) are not modelled: no handler reads them.
- The database-readiness check is modelled only where the code makes it, in register. When
  the database is down, other handlers' Mongoose calls fail; that is not modelled.
- `sendResetOtp` and `resetPassword` take the email as a plain string. With the email absent
  from the body, Mongoose's `findOne({ email: undefined })` matches an arbitrary document.
  That is not modelled.
- Body fields are modelled as strings. A JSON number, boolean or object arrives in the code
  as a different JavaScript value; the model uses its `toString()` text. What that gives up:
  - `!name` and `!password` reject `0` and `false` with 400, while the model accepts the
    strings "0" and "false".
  - `bcrypt.hash` and `bcrypt.compare` throw on a password that is not a string, a 500 the
    model does not produce.
  - With `express.urlencoded({ extended: true })` (Server/app.js:52) a bracketed field such as
    `email[$ne]=x` reaches `findOne` as a query operator, not as a string. The model has no
    query operators.
- UserModel.NormalizeEmail: lower-cases only ASCII letters, whereas
  `String.prototype.toLowerCase` also folds other scripts.
- Text.Lower: lower-cases only ASCII letters, for the same reason.
- Text.LowerMeaning: states the ASCII-only mapping of `Text.Lower`.
- UserModel.NormalizeEmailMeaning: idempotence holds of the ASCII-only normalisation.
- Crypto.Hash: idealises bcrypt as collision-free on its 72-byte key, and its salt is a
  parameter. The cost of hashing and the timing of comparison are not modelled.
- Crypto.Matches: a password containing U+0000 is keyed as its whole UTF-8 encoding. In
  bcryptjs the terminating zero byte is also cycled into the key, so such passwords differ
  there. A string with an unpaired surrogate is not representable, since a Dafny `char` is a
  Unicode scalar value.
- Crypto.Verify: jsonwebtoken's algorithm choice, `iat` and `nbf` are not modelled. A token
  is either a well-formed JWT under some key or an opaque string. A JWT here always carries
  `exp`, because the server always signs with `expiresIn`. In jsonwebtoken a token signed
  with the key but without `exp` never expires.
- Text.NatToDecimal: matches `Number.prototype.toString` only below 10^21, where
  JavaScript switches to exponent notation. The server prints only six-digit codes.
- Text.JsLength: counts code units of well-formed strings only. Unpaired surrogates are not
  representable.
- AuthController.GenerateOtp: `Math.random()` is a parameter, the point in [0, 900000) it
  lands on. The floating-point rounding of `Math.floor(100000 + Math.random() * 900000)` is
  taken to stay below 1000000.
- Concurrency is not modelled: each request runs alone against the collection. So are the
  check-then-create race at registration and two verifications racing on one code.
- Cookie options (`httpOnly`, `secure`, `sameSite`, `maxAge`) are not modelled. The model
  keeps only the cookie's value and whether a reply sets or clears it. The browser is
  assumed to drop the cookie when told to.
- Server/controllers/userController.js, Server/routes/userRouter.js, Server/config/database.js,
  Server/config/nodemailer.js and Server/app.js are not part of this model: they hold the
  profile route, connection and transport setup, and Express wiring. Neither is the client.
- Configuration is a value (`AuthController.Config`): the signing key and database
  readiness, fixed for one request.

=== FILE: auth_controller.dfy ===
/** The authentication request handlers, each a pure transition from the user
    collection (plus the request, the clock and the library's random choices) to a
    reply and the collection after the request. */
module AuthController {
  import opened Base
  import opened Text
  import opened Crypto
  import opened UserModel
  import opened Http
  import opened UserAuth

  /** What `Math.random()` contributes to `generateOtp`: `Math.floor(100000 +
      Math.random() * 900000)` is `100000 + k` for the index `k` it lands on. */
  type OtpIndex = k: nat | k < 900000

  const OtpLow: nat := 100000

  /** `otpExpiryTime`: codes live fifteen minutes. */
  const OtpLifetimeMs: nat := 15 * 60 * 1000

  /** `generateOtp()`: a number whose decimal text, the stored code, is exactly six
      digits and reads back as the number. */
  function GenerateOtp(k: OtpIndex): (otp: nat)
    ensures OtpLow <= otp < 10 * OtpLow
    ensures IsOtpCode(NatToDecimal(otp)) && DecimalValue(NatToDecimal(otp)) == otp
  {
    var otp := OtpLow + k;
    assert Pow10(5) == OtpLow && Pow10(6) == 10 * OtpLow;
    DecimalLength(otp, 6);
    DecimalRoundTrip(otp);
    otp
  }

  /** `otp.toString()` of a generated code. */
  function OtpCode(k: OtpIndex): string
  {
    NatToDecimal(GenerateOtp(k))
  }

  /** `storedExpiry < new Date()`. JavaScript compares a null date as 0, so a missing
      expiry counts as expired from the first millisecond on. */
  function Expired(expiry: Option<nat>, now: nat): (expired: bool)
    ensures expiry.Some? ==> (expired <==> expiry.value < now)
    ensures expiry.None? ==> (expired <==> now > 0)
  {
    (if expiry.Some? then expiry.value else 0) < now
  }

  /** `otpExpiryTime()` evaluated at `now`: a code stored then is live up to and
      including the last millisecond of the following fifteen minutes, and expired
      after. */
  function OtpExpiryTime(now: nat): (expiry: nat)
    ensures forall later: nat :: !Expired(Some(expiry), later) <==> later <= now + OtpLifetimeMs
  {
    now + OtpLifetimeMs
  }

  /** `publicUserResponse(user)`: the id, name, email and verification flag, and none
      of the password hash or the codes. */
  function PublicUserResponse(u: User): (p: PublicUser)
    ensures p.id == u.id && p.name == u.name && p.email == u.email
    ensures p.isAccountVerified == u.isAccountVerified
  {
    PublicUser(u.id, u.name, u.email, u.isAccountVerified)
  }

  /** The process configuration the handlers consult: `JWT_SECRET` and whether the
      database connection is ready. */
  datatype Config = Config(jwtSecret: Option<string>, dbConnected: bool)

  /** A handled request: the reply and the collection afterwards. */
  datatype Step = Step(response: Response, store: Store)

  /** `registerUser`. */
  function RegisterUser(cfg: Config, s: Store, now: nat, salt: nat,
                        name: Option<string>, email: Option<string>, password: Option<string>): (r: Step)
    ensures !Present(name) || !Present(email) || !Present(password) ==>
      r == Step(Refuse(StatusBadRequest, "All fields are required"), s)
    ensures r.response.status == StatusCreated <==>
      && Present(name) && Present(email) && Present(password)
      && Present(cfg.jwtSecret) && cfg.dbConnected
      && NormalizeEmail(email.value) !in s.users
      && !AllSpace(name.value) && NormalizeEmail(email.value) != ""
    ensures r.response.status != StatusCreated ==> r.store == s && !r.response.success
    ensures r.response.status == StatusCreated ==>
      var e := NormalizeEmail(email.value);
      && r.store.users.Keys == s.users.Keys + {e}
      && var u := r.store.users[e];
      && (forall k | k in s.users :: r.store.users[k] == s.users[k])
      && u.id == s.nextId && u.name == Trim(name.value) && u.email == e
      && u.password == Hash(password.value, salt)
      && r.store == Insert(s, u)
      && HasDefaults(u)
      && r.response.success
      && r.response.body == Created(u.id, u.name, u.email)
      && r.response.cookie == SetToken(Sign(cfg.jwtSecret.value, u.id, now))
  {
    if !Present(name) || !Present(email) || !Present(password) then
      Step(Refuse(StatusBadRequest, "All fields are required"), s)
    else if !Present(cfg.jwtSecret) then
      Step(Refuse(StatusInternalError, "Server configuration error. Please contact support."), s)
    else if !cfg.dbConnected then
      Step(Refuse(StatusUnavailable, "Database connection unavailable. Please try again later."), s)
    else if FindOne(s, email.value).Some? then
      Step(Refuse(StatusConflict, "User already exists"), s)
    else
      match NewUser(s.nextId, name.value, email.value, Hash(password.value, salt))
      case Err(_) => Step(Crash(RequiredPathMissing), s)
      case Ok(u) =>
        var token := Sign(cfg.jwtSecret.value, u.id, now);
        Step(Response(StatusCreated, true, Some(Says("Account created successfully")),
                      Created(u.id, u.name, u.email), SetToken(token)),
             Insert(s, u))
  }

  /** `loginUser`. It only reads the collection. */
  function LoginUser(cfg: Config, s: Store, now: nat, email: Option<string>, password: Option<string>): (r: Step)
    ensures r.store == s
    ensures !Present(email) || !Present(password) ==>
      r.response == Refuse(StatusBadRequest, "All fields are required")
    ensures r.response.success <==>
      && Present(email) && Present(password) && FindOne(s, email.value).Some?
      && Matches(password.value, s.users[FindOne(s, email.value).value].password)
      && Present(cfg.jwtSecret)
    ensures r.response.success ==>
      var u := s.users[FindOne(s, email.value).value];
      && r.response.status == StatusOk
      && r.response.body == Data(PublicUserResponse(u))
      && r.response.cookie == SetToken(Sign(cfg.jwtSecret.value, u.id, now))
    ensures !r.response.success ==> r.response.cookie == KeepCookie && r.response.body == NoBody
  {
    if !Present(email) || !Present(password) then
      Step(Refuse(StatusBadRequest, "All fields are required"), s)
    else
      match FindOne(s, email.value)
      case None => Step(Refuse(StatusUnauthorized, "Invalid credentials"), s)
      case Some(key) =>
        var u := s.users[key];
        if !Matches(password.value, u.password) then
          Step(Refuse(StatusUnauthorized, "Invalid credentials"), s)
        else if !Present(cfg.jwtSecret) then
          Step(Crash(SignWithoutSecret), s)
        else
          Step(Response(StatusOk, true, Some(Says("Login successful")), Data(PublicUserResponse(u)),
                        SetToken(Sign(cfg.jwtSecret.value, u.id, now))),
               s)
  }

  /** `logoutUser`: clears the cookie and nothing else. */
  function LogoutUser(s: Store): (r: Step)
    ensures r.store == s && r.response.status == StatusOk && r.response.success
    ensures r.response.cookie == ClearToken
  {
    Step(Response(StatusOk, true, Some(Says("Logged out successfully")), NoBody, ClearToken), s)
  }

  /** `isAuthenticated`: the public projection of the user the session names. */
  function IsAuthenticated(s: Store, auth: AuthUser): (r: Step)
    ensures r.store == s && r.response.cookie == KeepCookie
    ensures r.response.success <==> FindById(s, auth.id).Some?
    ensures r.response.success ==>
      r.response.status == StatusOk && r.response.body == UserData(PublicUserResponse(s.users[FindById(s, auth.id).value]))
    ensures !r.response.success ==> r.response == Refuse(StatusUnauthorized, "User not found")
  {
    match FindById(s, auth.id)
    case None => Step(Refuse(StatusUnauthorized, "User not found"), s)
    case Some(key) => Step(Response(StatusOk, true, None, UserData(PublicUserResponse(s.users[key])), KeepCookie), s)
  }

  /** `sendVerifyOtp`. The verification mail is sent without being awaited, so its
      fate is not visible in the reply. */
  function SendVerifyOtp(s: Store, auth: AuthUser, now: nat, k: OtpIndex): (r: Step)
    ensures r.response.cookie == KeepCookie && r.response.body == NoBody
    ensures r.response.success <==> FindById(s, auth.id).Some? && !s.users[FindById(s, auth.id).value].isAccountVerified
    ensures !r.response.success ==> r.store == s
    ensures FindById(s, auth.id).Some? && s.users[FindById(s, auth.id).value].isAccountVerified ==>
      r.response == Refuse(StatusBadRequest, "Account already verified")
    ensures r.response.success ==>
      var key := FindById(s, auth.id).value;
      && r.response.status == StatusOk
      && r.store == Save(s, key, s.users[key].(verifyOtp := Some(OtpCode(k)), verifyOtpExpiry := Some(OtpExpiryTime(now))))
  {
    match FindById(s, auth.id)
    case None => Step(Refuse(StatusNotFound, "User not found"), s)
    case Some(key) =>
      var u := s.users[key];
      if u.isAccountVerified then
        Step(Refuse(StatusBadRequest, "Account already verified"), s)
      else
        var u' := u.(verifyOtp := Some(OtpCode(k)), verifyOtpExpiry := Some(OtpExpiryTime(now)));
        Step(Response(StatusOk, true, Some(Says("OTP sent successfully")), NoBody, KeepCookie), Save(s, key, u'))
  }

  /** `verifyEmail`. The guards run in a fixed order and the first that fails
      decides the reply; only a request passing all of them writes. */
  function VerifyEmail(s: Store, auth: AuthUser, now: nat, otp: Option<string>): (r: Step)
    ensures r.response.cookie == KeepCookie && r.response.body == NoBody
    ensures !Present(otp) || JsLength(otp.value) != 6 ==>
      r == Step(Refuse(StatusBadRequest, "Please enter a valid 6-digit OTP"), s)
    ensures !r.response.success ==> r.store == s
    ensures r.response.success <==>
      && Present(otp) && JsLength(otp.value) == 6 && FindById(s, auth.id).Some?
      && var u := s.users[FindById(s, auth.id).value];
         Present(u.verifyOtp) && !Expired(u.verifyOtpExpiry, now) && u.verifyOtp.value == otp.value
    ensures r.response.success ==>
      var key := FindById(s, auth.id).value;
      && r.response.status == StatusOk
      && r.store == Save(s, key, s.users[key].(isAccountVerified := true, verifyOtp := None, verifyOtpExpiry := None))
  {
    if !Present(otp) || JsLength(otp.value) != 6 then
      Step(Refuse(StatusBadRequest, "Please enter a valid 6-digit OTP"), s)
    else
      match FindById(s, auth.id)
      case None => Step(Refuse(StatusNotFound, "User not found"), s)
      case Some(key) =>
        var u := s.users[key];
        if !Present(u.verifyOtp) then
          Step(Refuse(StatusBadRequest, "No verification OTP found. Please request a new one."), s)
        else if Expired(u.verifyOtpExpiry, now) then
          Step(Refuse(StatusBadRequest, "OTP has expired. Please request a new one."), s)
        else if u.verifyOtp.value != otp.value then
          Step(Refuse(StatusBadRequest, "Invalid OTP. Please try again."), s)
        else
          var u' := u.(isAccountVerified := true, verifyOtp := None, verifyOtpExpiry := None);
          Step(Response(StatusOk, true, Some(Says("Account verified successfully")), NoBody, KeepCookie), Save(s, key, u'))
  }

  /** `sendResetOtp`. The code is saved before the mail is sent, and the mail is
      awaited, so a failed delivery is a 500 that leaves the new code stored. */
  function SendResetOtp(s: Store, now: nat, k: OtpIndex, mailDelivered: bool, email: string): (r: Step)
    ensures r.response.cookie == KeepCookie && r.response.body == NoBody
    ensures FindOne(s, email).None? <==> r.response == Refuse(StatusNotFound, "User not found")
    ensures FindOne(s, email).None? ==> r.store == s
    ensures r.response.success <==> FindOne(s, email).Some? && mailDelivered
    ensures FindOne(s, email).Some? ==>
      var key := FindOne(s, email).value;
      r.store == Save(s, key, s.users[key].(resetOtp := Some(OtpCode(k)), resetOtpExpiry := Some(OtpExpiryTime(now))))
  {
    match FindOne(s, email)
    case None => Step(Refuse(StatusNotFound, "User not found"), s)
    case Some(key) =>
      var u' := s.users[key].(resetOtp := Some(OtpCode(k)), resetOtpExpiry := Some(OtpExpiryTime(now)));
      var s' := Save(s, key, u');
      if mailDelivered then
        Step(Response(StatusOk, true, Some(Says("OTP sent successfully")), NoBody, KeepCookie), s')
      else
        Step(Crash(MailNotDelivered), s')
  }

  /** `resetPassword`. A missing, wrong or expired code all get the same reply. An
      `otp` absent from the body throws once a code is stored; an absent new
      password throws after the code checks pass, before anything is saved. */
  function ResetPassword(s: Store, now: nat, salt: nat, email: string,
                         otp: Option<string>, newPassword: Option<string>): (r: Step)
    ensures r.response.cookie == KeepCookie && r.response.body == NoBody
    ensures !r.response.success ==> r.store == s
    ensures r.response.success <==>
      && FindOne(s, email).Some?
      && var u := s.users[FindOne(s, email).value];
         && Present(u.resetOtp) && otp == u.resetOtp && !Expired(u.resetOtpExpiry, now)
         && newPassword.Some?
    ensures r.response.success ==>
      var key := FindOne(s, email).value;
      && r.response.status == StatusOk
      && r.store == Save(s, key, s.users[key].(password := Hash(newPassword.value, salt), resetOtp := None, resetOtpExpiry := None))
  {
    match FindOne(s, email)
    case None => Step(Refuse(StatusNotFound, "User not found"), s)
    case Some(key) =>
      var u := s.users[key];
      if !Present(u.resetOtp) then
        Step(Refuse(StatusBadRequest, "Invalid or expired OTP"), s)
      else if otp.None? then
        Step(Crash(OtpToStringOfMissing), s)
      else if u.resetOtp.value != otp.value || Expired(u.resetOtpExpiry, now) then
        Step(Refuse(StatusBadRequest, "Invalid or expired OTP"), s)
      else if newPassword.None? then
        Step(Crash(HashOfMissing), s)
      else
        var u' := u.(password := Hash(newPassword.value, salt), resetOtp := None, resetOtpExpiry := None);
        Step(Response(StatusOk, true, Some(Says("Password reset successful")), NoBody, KeepCookie), Save(s, key, u'))
  }
}

=== FILE: auth_properties.dfy ===
/** Properties that relate several requests: registration followed by login and by
    a session check, login's refusal to tell unknown emails from wrong passwords,
    what logout does and does not revoke, the order of the OTP checks, single use
    of each code, the fifteen-minute window, and the independence of the two OTP
    channels. */
module AuthProperties {
  import opened Base
  import opened Text
  import opened Crypto
  import opened UserModel
  import opened Http
  import opened UserAuth
  import opened AuthController
  import opened AuthRouter
  import opened StoreInvariants

  /* ---------------- Registration ---------------- */

  /** An email already taken, up to case and surrounding whitespace, is a 409 whatever
      name and password come with it, and nothing is written. */
  lemma RegisterDuplicateConflict(cfg: Config, s: Store, now: nat, salt: nat,
                                  name: string, email: string, password: string)
    requires name != "" && email != "" && password != ""
    requires Present(cfg.jwtSecret) && cfg.dbConnected
    requires NormalizeEmail(email) in s.users
    ensures RegisterUser(cfg, s, now, salt, Some(name), Some(email), Some(password))
         == Step(Refuse(StatusConflict, "User already exists"), s)
  {
  }

  /** After registering, logging in with the same email (in any case, with any
      surrounding whitespace) succeeds exactly for a password bcrypt cannot tell from
      the registered one: the registered password itself when both fit in 72 encoded
      bytes. The reply is the new user's public projection. */
  lemma RegisterThenLogin(cfg: Config, s: Store, t0: nat, salt: nat, name: string, email: string, password: string,
                          t1: nat, loginEmail: string, attempt: string)
    requires RegisterUser(cfg, s, t0, salt, Some(name), Some(email), Some(password)).response.status == StatusCreated
    requires loginEmail != "" && attempt != "" && NormalizeEmail(loginEmail) == NormalizeEmail(email)
    ensures var s' := RegisterUser(cfg, s, t0, salt, Some(name), Some(email), Some(password)).store;
      var r := LoginUser(cfg, s', t1, Some(loginEmail), Some(attempt));
      && (r.response.success <==> Matches(attempt, Hash(password, salt)))
      && (|Utf8(attempt)| <= BcryptKeyBytes && |Utf8(password)| <= BcryptKeyBytes ==>
            (r.response.success <==> attempt == password))
      && (r.response.success ==> r.response.body == Data(PublicUser(s.nextId, Trim(name), NormalizeEmail(email), false)))
      && (!r.response.success ==> r.response == Refuse(StatusUnauthorized, "Invalid credentials"))
  {
  }

  /** The cookie set by registration opens a session: within the token's lifetime a
      session check with it returns the new, unverified user. */
  lemma RegisterThenSessionCheck(cfg: Config, s: Store, t0: nat, salt: nat, name: string, email: string,
                                 password: string, env: Env)
    requires RegisterUser(cfg, s, t0, salt, Some(name), Some(email), Some(password)).response.status == StatusCreated
    requires t0 <= env.now < t0 + TokenLifetimeSeconds * 1000 - 999
    ensures var r := RegisterUser(cfg, s, t0, salt, Some(name), Some(email), Some(password));
      Handle(cfg, r.store, env, ApplyCookie(None, r.response.cookie), IsAuthReq).response
        == Response(StatusOk, true, None, UserData(PublicUser(s.nextId, Trim(name), NormalizeEmail(email), false)), KeepCookie)
  {
    RegisteredUserFoundById(cfg, s, t0, salt, name, email, password);
    var r := RegisterUser(cfg, s, t0, salt, Some(name), Some(email), Some(password));
    SessionCheckWithIssuedToken(cfg, r.store, env, s.nextId, t0, NormalizeEmail(email));
  }

  /** A session check carrying a token the server issued for an existing user
      returns that user's public projection. */
  lemma SessionCheckWithIssuedToken(cfg: Config, st: Store, env: Env, id: Id, issued: nat, key: string)
    requires Present(cfg.jwtSecret) && FindById(st, id) == Some(key)
    requires env.now < issued + TokenLifetimeSeconds * 1000 - 999
    ensures Handle(cfg, st, env, Some(Sign(cfg.jwtSecret.value, id, issued)), IsAuthReq).response
         == Response(StatusOk, true, None, UserData(PublicUserResponse(st.users[key])), KeepCookie)
  {
    AcceptsIssuedToken(cfg.jwtSecret.value, id, issued, env.now);
  }

  /** A registered user can be looked up by the id registration gave it, and the
      browser holds a token for that id. */
  lemma RegisteredUserFoundById(cfg: Config, s: Store, t0: nat, salt: nat, name: string, email: string, password: string)
    requires RegisterUser(cfg, s, t0, salt, Some(name), Some(email), Some(password)).response.status == StatusCreated
    ensures Present(cfg.jwtSecret)
    ensures var r := RegisterUser(cfg, s, t0, salt, Some(name), Some(email), Some(password));
      && ApplyCookie(None, r.response.cookie) == Some(Sign(cfg.jwtSecret.value, s.nextId, t0))
      && FindById(r.store, s.nextId) == Some(NormalizeEmail(email))
      && PublicUserResponse(r.store.users[NormalizeEmail(email)]) == PublicUser(s.nextId, Trim(name), NormalizeEmail(email), false)
  {
    var r := RegisterUser(cfg, s, t0, salt, Some(name), Some(email), Some(password));
    var e := NormalizeEmail(email);
    assert r.store == Insert(s, r.store.users[e]);
    assert r.store.ids[s.nextId] == e;
  }

  /* ---------------- Login ---------------- */

  /** Login cannot be used to probe for accounts: an unknown email and a known email
      with a wrong password get the very same reply, and neither writes. */
  lemma LoginNoEnumeration(cfg: Config, s: Store, now: nat, unknown: string, pw1: string, known: string, pw2: string)
    requires unknown != "" && pw1 != "" && known != "" && pw2 != ""
    requires FindOne(s, unknown).None?
    requires FindOne(s, known).Some? && !Matches(pw2, s.users[FindOne(s, known).value].password)
    ensures LoginUser(cfg, s, now, Some(unknown), Some(pw1)) == LoginUser(cfg, s, now, Some(known), Some(pw2))
    ensures LoginUser(cfg, s, now, Some(unknown), Some(pw1)) == Step(Refuse(StatusUnauthorized, "Invalid credentials"), s)
  {
  }

  /** Replies that carry a user reveal nothing beyond the public projection: two
      collections whose record differs only in its password hash and OTP fields
      give the same session-check reply. */
  lemma SessionCheckHidesSecrets(s: Store, key: string, u: User, auth: AuthUser)
    requires key in s.users
    requires u.id == s.users[key].id && u.name == s.users[key].name && u.email == s.users[key].email
    requires u.isAccountVerified == s.users[key].isAccountVerified
    ensures IsAuthenticated(Save(s, key, u), auth).response == IsAuthenticated(s, auth).response
  {
    var s' := Save(s, key, u);
    if FindById(s, auth.id).Some? {
      assert FindById(s', auth.id) == FindById(s, auth.id);
    }
  }

  /** Login's reply does not depend on the OTP fields of the account. */
  lemma LoginHidesOtpState(cfg: Config, s: Store, now: nat, key: string, u: User, email: Option<string>, password: Option<string>)
    requires key in s.users
    requires u == s.users[key].(verifyOtp := u.verifyOtp, verifyOtpExpiry := u.verifyOtpExpiry,
                                resetOtp := u.resetOtp, resetOtpExpiry := u.resetOtpExpiry)
    ensures LoginUser(cfg, Save(s, key, u), now, email, password).response == LoginUser(cfg, s, now, email, password).response
  {
  }

  /* ---------------- Logout ---------------- */

  /** Logging out twice gives the same reply both times and writes nothing. */
  lemma LogoutIdempotent(s: Store)
    ensures LogoutUser(LogoutUser(s).store) == LogoutUser(s)
    ensures LogoutUser(s).store == s
  {
  }

  /** Once the browser has dropped the cookie a logout cleared, every protected
      route is refused with 401, a second logout (itself protected) included. */
  lemma LogoutEndsBrowserSession(cfg: Config, s: Store, env1: Env, env2: Env, jar: Option<Token>, req: Request)
    requires Authenticate(cfg.jwtSecret, jar, env1.now).Continue? && IsProtected(req)
    ensures var r1 := Handle(cfg, s, env1, jar, LogoutReq);
      && r1.response.status == StatusOk && r1.store == s
      && Handle(cfg, r1.store, env2, ApplyCookie(jar, r1.response.cookie), req)
           == Step(Refuse(StatusUnauthorized, "Authentication required"), s)
  {
  }

  /** Logout does not revoke the token: replaying the pre-logout cookie on any
      protected route gets exactly what it would have got before. */
  lemma LogoutDoesNotRevoke(cfg: Config, s: Store, env1: Env, env2: Env, jar: Option<Token>, req: Request)
    ensures Handle(cfg, Handle(cfg, s, env1, jar, LogoutReq).store, env2, jar, req) == Handle(cfg, s, env2, jar, req)
  {
    assert Handle(cfg, s, env1, jar, LogoutReq).store == s;
  }

  /* ---------------- Email verification ---------------- */

  /** The guards of `verifyEmail`, in order, for a well-formed code and a known user:
      no stored code, then expiry, then mismatch. Each failure writes nothing. */
  lemma VerifyEmailCheckOrder(s: Store, auth: AuthUser, now: nat, otp: string)
    requires JsLength(otp) == 6 && FindById(s, auth.id).Some?
    ensures var u := s.users[FindById(s, auth.id).value];
      var r := VerifyEmail(s, auth, now, Some(otp));
      && (!Present(u.verifyOtp) ==>
            r == Step(Refuse(StatusBadRequest, "No verification OTP found. Please request a new one."), s))
      && (Present(u.verifyOtp) && Expired(u.verifyOtpExpiry, now) ==>
            r == Step(Refuse(StatusBadRequest, "OTP has expired. Please request a new one."), s))
      && (Present(u.verifyOtp) && !Expired(u.verifyOtpExpiry, now) && u.verifyOtp.value != otp ==>
            r == Step(Refuse(StatusBadRequest, "Invalid OTP. Please try again."), s))
  {
  }

  /** The code sent by `sendVerifyOtp` verifies the account up to and including the
      last millisecond of its fifteen minutes, and is reported expired after. */
  lemma SendThenVerify(s: Store, auth: AuthUser, t0: nat, k: OtpIndex, now: nat)
    requires SendVerifyOtp(s, auth, t0, k).response.success
    ensures var s1 := SendVerifyOtp(s, auth, t0, k).store;
      var r := VerifyEmail(s1, auth, now, Some(OtpCode(k)));
      && (r.response.success <==> now <= t0 + OtpLifetimeMs)
      && (!r.response.success ==> r.response == Refuse(StatusBadRequest, "OTP has expired. Please request a new one."))
      && (r.response.success ==> r.store.users[FindById(s, auth.id).value].isAccountVerified)
  {
    var key := FindById(s, auth.id).value;
    var s1 := SendVerifyOtp(s, auth, t0, k).store;
    assert FindById(s1, auth.id) == Some(key);
  }

  /** Within the window, any other code of JavaScript length six is refused as a
      mismatch. */
  lemma SendThenWrongCode(s: Store, auth: AuthUser, t0: nat, k: OtpIndex, now: nat, guess: string)
    requires SendVerifyOtp(s, auth, t0, k).response.success
    requires JsLength(guess) == 6 && guess != OtpCode(k) && now <= t0 + OtpLifetimeMs
    ensures var s1 := SendVerifyOtp(s, auth, t0, k).store;
      VerifyEmail(s1, auth, now, Some(guess)) == Step(Refuse(StatusBadRequest, "Invalid OTP. Please try again."), s1)
  {
    var key := FindById(s, auth.id).value;
    var s1 := SendVerifyOtp(s, auth, t0, k).store;
    assert FindById(s1, auth.id) == Some(key);
    var u := s1.users[key];
    assert u.verifyOtp == Some(OtpCode(k)) && u.verifyOtpExpiry == Some(OtpExpiryTime(t0));
    assert !Expired(u.verifyOtpExpiry, now);
  }

  /** The format guard counts UTF-16 code units: three astral characters pass it and
      reach the lookup, while five digits and one astral character are refused. */
  lemma VerifyEmailCountsCodeUnits(s: Store, auth: AuthUser, now: nat)
    requires FindById(s, auth.id).None?
    ensures VerifyEmail(s, auth, now, Some("\U{1F600}\U{1F600}\U{1F600}")) == Step(Refuse(StatusNotFound, "User not found"), s)
    ensures VerifyEmail(s, auth, now, Some("12345\U{1F600}")) == Step(Refuse(StatusBadRequest, "Please enter a valid 6-digit OTP"), s)
  {
  }

  /** A verification code works once: replaying it, at any time, finds no code. */
  lemma VerifyEmailSingleUse(s: Store, auth: AuthUser, t1: nat, t2: nat, otp: Option<string>)
    requires VerifyEmail(s, auth, t1, otp).response.success
    ensures var s1 := VerifyEmail(s, auth, t1, otp).store;
      VerifyEmail(s1, auth, t2, otp) == Step(Refuse(StatusBadRequest, "No verification OTP found. Please request a new one."), s1)
  {
    var s1 := VerifyEmail(s, auth, t1, otp).store;
    assert FindById(s1, auth.id) == FindById(s, auth.id);
  }

  /** A verified account is never given a verification code, by any request. */
  lemma VerifiedNeverGetsCode(cfg: Config, s: Store, env: Env, cookie: Option<Token>, req: Request, e: string)
    requires ValidStore(s) && e in s.users && s.users[e].isAccountVerified
    ensures var s' := Handle(cfg, s, env, cookie, req).store;
      e in s'.users && s'.users[e].isAccountVerified && s'.users[e].verifyOtp.None?
  {
    HandlePreservesValid(cfg, s, env, cookie, req);
    HandleEvolves(cfg, s, env, cookie, req);
  }

  /** The worked example: code 482193 sent at t0 verifies at t0 + 10 minutes, and
      the same code sent again straight after is refused. */
  lemma VerifyEmailExample(s: Store, auth: AuthUser, t0: nat)
    requires SendVerifyOtp(s, auth, t0, 382193).response.success
    ensures OtpCode(382193) == "482193"
    ensures var s1 := SendVerifyOtp(s, auth, t0, 382193).store;
      var r1 := VerifyEmail(s1, auth, t0 + 10 * 60 * 1000, Some("482193"));
      && r1.response.success
      && !VerifyEmail(r1.store, auth, t0 + 10 * 60 * 1000, Some("482193")).response.success
  {
    assert NatToDecimal(482193) == "482193" by {
      assert NatToDecimal(4) == "4";
      assert NatToDecimal(48) == "48";
      assert NatToDecimal(482) == "482";
      assert NatToDecimal(4821) == "4821";
      assert NatToDecimal(48219) == "48219";
    }
    SendThenVerify(s, auth, t0, 382193, t0 + 10 * 60 * 1000);
    var s1 := SendVerifyOtp(s, auth, t0, 382193).store;
    VerifyEmailSingleUse(s1, auth, t0 + 10 * 60 * 1000, t0 + 10 * 60 * 1000, Some("482193"));
  }

  /* ---------------- Password reset ---------------- */

  /** A missing, wrong or expired reset code all get one and the same reply, and the
      password stays as it was. */
  lemma ResetPasswordUniformFailure(s: Store, now: nat, salt: nat, email: string, otp: string, newPassword: Option<string>)
    requires FindOne(s, email).Some?
    requires var u := s.users[FindOne(s, email).value];
      !Present(u.resetOtp) || u.resetOtp.value != otp || Expired(u.resetOtpExpiry, now)
    ensures ResetPassword(s, now, salt, email, Some(otp), newPassword) == Step(Refuse(StatusBadRequest, "Invalid or expired OTP"), s)
  {
  }

  /** The reset code works within its fifteen minutes, and a successful reset
      stores a hash of the new password and clears the code. Outside the window
      nothing changes. */
  lemma SendResetThenReset(s: Store, t0: nat, k: OtpIndex, delivered: bool, email: string,
                           now: nat, salt: nat, newPassword: string)
    requires FindOne(s, email).Some?
    ensures var s1 := SendResetOtp(s, t0, k, delivered, email).store;
      var r := ResetPassword(s1, now, salt, email, Some(OtpCode(k)), Some(newPassword));
      var key := FindOne(s, email).value;
      && FindOne(r.store, email) == Some(key)
      && (r.response.success <==> now <= t0 + OtpLifetimeMs)
      && (!r.response.success ==> r.store == s1)
      && (r.response.success ==>
            && r.store.users[key].resetOtp.None?
            && r.store.users[key].password == Hash(newPassword, salt))
  {
  }

  /** After the password of an account changes, the new password logs in, and any
      other password logs in exactly when bcrypt cannot tell it from the new one;
      otherwise it gets the uniform refusal. */
  lemma LoginAfterPasswordChange(cfg: Config, st: Store, now: nat, email: string, newPassword: string, salt: nat,
                                 oldPassword: string)
    requires FindOne(st, email).Some? && st.users[FindOne(st, email).value].password == Hash(newPassword, salt)
    requires email != "" && newPassword != "" && oldPassword != ""
    ensures LoginUser(cfg, st, now, Some(email), Some(newPassword)).response.success == Present(cfg.jwtSecret)
    ensures LoginUser(cfg, st, now, Some(email), Some(oldPassword)).response.success
        <==> Present(cfg.jwtSecret) && Matches(oldPassword, Hash(newPassword, salt))
    ensures !Matches(oldPassword, Hash(newPassword, salt)) ==>
      LoginUser(cfg, st, now, Some(email), Some(oldPassword)).response == Refuse(StatusUnauthorized, "Invalid credentials")
  {
  }

  /** A reset code works once: replaying it is refused with the uniform reply. */
  lemma ResetPasswordSingleUse(s: Store, t1: nat, t2: nat, salt1: nat, salt2: nat, email: string,
                               otp: Option<string>, p1: Option<string>, p2: Option<string>)
    requires ResetPassword(s, t1, salt1, email, otp, p1).response.success
    ensures var s1 := ResetPassword(s, t1, salt1, email, otp, p1).store;
      ResetPassword(s1, t2, salt2, email, otp, p2) == Step(Refuse(StatusBadRequest, "Invalid or expired OTP"), s1)
  {
  }

  /** The worked example: a correct reset code presented sixteen minutes after it was
      sent is refused, and the password is untouched. */
  lemma ResetPasswordExample(s: Store, t0: nat, k: OtpIndex, email: string, salt: nat, newPassword: string)
    requires FindOne(s, email).Some?
    ensures var s1 := SendResetOtp(s, t0, k, true, email).store;
      var r := ResetPassword(s1, t0 + 16 * 60 * 1000, salt, email, Some(OtpCode(k)), Some(newPassword));
      && r == Step(Refuse(StatusBadRequest, "Invalid or expired OTP"), s1)
      && r.store.users[FindOne(s, email).value].password == s.users[FindOne(s, email).value].password
  {
  }

  /* ---------------- Channel independence ---------------- */

  /** The verification channel never touches a password or a reset code. */
  lemma VerifyChannelLeavesResetAlone(s: Store, auth: AuthUser, now: nat, k: OtpIndex, otp: Option<string>, e: string)
    requires e in s.users
    ensures var s1 := SendVerifyOtp(s, auth, now, k).store;
      e in s1.users && s1.users[e].password == s.users[e].password
      && s1.users[e].resetOtp == s.users[e].resetOtp && s1.users[e].resetOtpExpiry == s.users[e].resetOtpExpiry
      && s1.users[e].isAccountVerified == s.users[e].isAccountVerified
    ensures var s2 := VerifyEmail(s, auth, now, otp).store;
      e in s2.users && s2.users[e].password == s.users[e].password
      && s2.users[e].resetOtp == s.users[e].resetOtp && s2.users[e].resetOtpExpiry == s.users[e].resetOtpExpiry
  {
  }

  /** The reset channel never touches verification state. */
  lemma ResetChannelLeavesVerifyAlone(s: Store, now: nat, k: OtpIndex, delivered: bool, email: string, e: string)
    requires e in s.users
    ensures var s1 := SendResetOtp(s, now, k, delivered, email).store;
      e in s1.users && s1.users[e].isAccountVerified == s.users[e].isAccountVerified
      && s1.users[e].verifyOtp == s.users[e].verifyOtp && s1.users[e].verifyOtpExpiry == s.users[e].verifyOtpExpiry
      && s1.users[e].password == s.users[e].password
  {
  }

  /** Resetting a password never touches verification state. */
  lemma ResetPasswordLeavesVerifyAlone(s: Store, now: nat, salt: nat, email: string,
                                       otp: Option<string>, newPassword: Option<string>, e: string)
    requires e in s.users
    ensures var s2 := ResetPassword(s, now, salt, email, otp, newPassword).store;
      e in s2.users && s2.users[e].isAccountVerified == s.users[e].isAccountVerified
      && s2.users[e].verifyOtp == s.users[e].verifyOtp && s2.users[e].verifyOtpExpiry == s.users[e].verifyOtpExpiry
  {
  }

  /** Two collections that agree on ids and on every record's verification state. */
  predicate SameVerifyView(a: Store, b: Store)
  {
    && a.ids == b.ids && a.users.Keys == b.users.Keys
    && forall e | e in a.users ::
         && a.users[e].id == b.users[e].id
         && a.users[e].verifyOtp == b.users[e].verifyOtp
         && a.users[e].verifyOtpExpiry == b.users[e].verifyOtpExpiry
  }

  /** Two collections that agree on every record's reset state. */
  predicate SameResetView(a: Store, b: Store)
  {
    && a.users.Keys == b.users.Keys
    && forall e | e in a.users ::
         && a.users[e].resetOtp == b.users[e].resetOtp
         && a.users[e].resetOtpExpiry == b.users[e].resetOtpExpiry
  }

  /** `verifyEmail` decides from the verification state alone. */
  lemma VerifyEmailReadsVerifyView(a: Store, b: Store, auth: AuthUser, now: nat, code: Option<string>)
    requires SameVerifyView(a, b)
    ensures VerifyEmail(a, auth, now, code).response == VerifyEmail(b, auth, now, code).response
  {
    assert FindById(a, auth.id) == FindById(b, auth.id);
  }

  /** `resetPassword` decides from the reset state alone. */
  lemma ResetPasswordReadsResetView(a: Store, b: Store, now: nat, salt: nat, email: string,
                                    otp: Option<string>, newPassword: Option<string>)
    requires SameResetView(a, b)
    ensures ResetPassword(a, now, salt, email, otp, newPassword).response
         == ResetPassword(b, now, salt, email, otp, newPassword).response
  {
  }

  /** Requesting or consuming a reset code in between does not change the outcome of
      an email verification. */
  lemma ResetTrafficDoesNotAffectVerify(s: Store, t: nat, k: OtpIndex, delivered: bool, salt: nat, email: string,
                                        otp: Option<string>, newPassword: Option<string>,
                                        auth: AuthUser, now: nat, code: Option<string>)
    ensures VerifyEmail(SendResetOtp(s, t, k, delivered, email).store, auth, now, code).response
         == VerifyEmail(s, auth, now, code).response
    ensures VerifyEmail(ResetPassword(s, t, salt, email, otp, newPassword).store, auth, now, code).response
         == VerifyEmail(s, auth, now, code).response
  {
    var s1 := SendResetOtp(s, t, k, delivered, email).store;
    var s2 := ResetPassword(s, t, salt, email, otp, newPassword).store;
    assert SameVerifyView(s1, s);
    assert SameVerifyView(s2, s);
    VerifyEmailReadsVerifyView(s1, s, auth, now, code);
    VerifyEmailReadsVerifyView(s2, s, auth, now, code);
  }

  /** Requesting or consuming a verification code in between does not change the
      outcome of a password reset. */
  lemma VerifyTrafficDoesNotAffectReset(s: Store, auth: AuthUser, t: nat, k: OtpIndex, code: Option<string>,
                                        now: nat, salt: nat, email: string, otp: Option<string>, newPassword: Option<string>)
    ensures ResetPassword(SendVerifyOtp(s, auth, t, k).store, now, salt, email, otp, newPassword).response
         == ResetPassword(s, now, salt, email, otp, newPassword).response
    ensures ResetPassword(VerifyEmail(s, auth, t, code).store, now, salt, email, otp, newPassword).response
         == ResetPassword(s, now, salt, email, otp, newPassword).response
  {
    var s1 := SendVerifyOtp(s, auth, t, k).store;
    var s2 := VerifyEmail(s, auth, t, code).store;
    assert SameResetView(s1, s);
    assert SameResetView(s2, s);
    ResetPasswordReadsResetView(s1, s, now, salt, email, otp, newPassword);
    ResetPasswordReadsResetView(s2, s, now, salt, email, otp, newPassword);
  }
}

=== FILE: auth_router.dfy ===
/** The `/api/auth` route table: which handler answers which request, and which
    requests pass the `userAuth` middleware first. Also the browser's cookie jar,
    which carries the `token` cookie from one request to the next. */
module AuthRouter {
  import opened Base
  import opened Crypto
  import opened UserModel
  import opened Http
  import opened UserAuth
  import opened AuthController

  /** One request to the authentication API, with the body fields it reads. */
  datatype Request =
    | RegisterReq(name: Option<string>, email: Option<string>, password: Option<string>)
    | LoginReq(email: Option<string>, password: Option<string>)
    | SendResetOtpReq(resetEmail: string)
    | ResetPasswordReq(resetEmail: string, otp: Option<string>, newPassword: Option<string>)
    | LogoutReq
    | SendVerifyOtpReq
    | VerifyEmailReq(code: Option<string>)
    | IsAuthReq

  /** The routes mounted behind `userAuth`: every route but the four public ones. */
  function IsProtected(req: Request): (protected: bool)
    ensures protected <==> !(req.RegisterReq? || req.LoginReq? || req.SendResetOtpReq? || req.ResetPasswordReq?)
  {
    req.LogoutReq? || req.SendVerifyOtpReq? || req.VerifyEmailReq? || req.IsAuthReq?
  }

  /** What the outside world supplies to one request: the clock, the index
      `Math.random` lands on, bcrypt's salt, and whether the awaited mail went out. */
  datatype Env = Env(now: nat, otpIndex: OtpIndex, salt: nat, mailDelivered: bool)

  /** Serves one request: the middleware for protected routes, then the handler. */
  function Handle(cfg: Config, s: Store, env: Env, cookie: Option<Token>, req: Request): (r: Step)
    ensures IsProtected(req) && Authenticate(cfg.jwtSecret, cookie, env.now).Reject? ==>
      r == Step(Authenticate(cfg.jwtSecret, cookie, env.now).response, s)
  {
    match req
    case RegisterReq(name, email, password) => RegisterUser(cfg, s, env.now, env.salt, name, email, password)
    case LoginReq(email, password) => LoginUser(cfg, s, env.now, email, password)
    case SendResetOtpReq(email) => SendResetOtp(s, env.now, env.otpIndex, env.mailDelivered, email)
    case ResetPasswordReq(email, otp, newPassword) => ResetPassword(s, env.now, env.salt, email, otp, newPassword)
    case _ =>
      match Authenticate(cfg.jwtSecret, cookie, env.now)
      case Reject(response) => Step(response, s)
      case Continue(user) =>
        match req
        case LogoutReq => LogoutUser(s)
        case SendVerifyOtpReq => SendVerifyOtp(s, user, env.now, env.otpIndex)
        case VerifyEmailReq(otp) => VerifyEmail(s, user, env.now, otp)
        case IsAuthReq => IsAuthenticated(s, user)
  }

  /** Public routes never look at the cookie. */
  lemma PublicRoutesIgnoreCookie(cfg: Config, s: Store, env: Env, c1: Option<Token>, c2: Option<Token>, req: Request)
    requires !IsProtected(req)
    ensures Handle(cfg, s, env, c1, req) == Handle(cfg, s, env, c2, req)
  {
  }

  /** The browser's `token` cookie after a reply arrives. */
  function ApplyCookie(jar: Option<Token>, effect: CookieEffect): (jar': Option<Token>)
    ensures effect.KeepCookie? ==> jar' == jar
  {
    match effect
    case KeepCookie => jar
    case SetToken(t) => Some(t)
    case ClearToken => None
  }
}

=== FILE: base.dfy ===
/** Shared vocabulary of the authentication model: optional values (JavaScript's
    `undefined`/`null`), results of operations that can fail, and record ids. */
module Base {

  /** A value that may be absent, as a request field or a nullable schema path. */
  datatype Option<+T> = None | Some(value: T)

  /** The outcome of an operation that either produces a value or fails. */
  datatype Result<+T, +E> = Ok(value: T) | Err(error: E)

  /** A record's `_id`. Ids are opaque; the model draws them from a counter. */
  type Id = nat

  /** JavaScript truthiness of an optional string: `undefined`, `null` and `""` are falsy. */
  predicate Present(x: Option<string>)
  {
    x.Some? && x.value != ""
  }
}

=== FILE: crypto.dfy ===
/** The two cryptographic libraries the server calls, reduced to their observable
    contracts: bcrypt (salted password hashing) and jsonwebtoken (signed,
    expiring session tokens). No hashing or signature scheme is modelled. */
module Crypto {
  import opened Base

  /** `bcrypt.hash(password, 10)`: the cost factor used everywhere in the server. */
  const SaltRounds: nat := 10

  /** The UTF-8 encoding of one character (section 3 of RFC 3629), as byte values. */
  function Utf8Char(c: char): (bytes: seq<nat>)
    ensures 1 <= |bytes| <= 4 && forall i | 0 <= i < |bytes| :: bytes[i] < 0x100
    ensures Utf8Width(bytes[0]) == |bytes|
    ensures |bytes| == (if c < '\U{80}' then 1 else if c < '\U{800}' then 2 else if c < '\U{10000}' then 3 else 4)
    ensures forall i | 1 <= i < |bytes| :: 0x80 <= bytes[i] < 0xC0
    ensures DecodeUtf8Char(bytes) == c as int
  {
    var n := c as int;
    if n < 0x80 then [n]
    else if n < 0x800 then
      [0xC0 + n / 64, 0x80 + n % 64]
    else if n < 0x1_0000 then
      ThreeSextets(n);
      [0xE0 + n / 4096, 0x80 + n / 64 % 64, 0x80 + n % 64]
    else
      FourSextets(n);
      [0xF0 + n / 262144, 0x80 + n / 4096 % 64, 0x80 + n / 64 % 64, 0x80 + n % 64]
  }

  lemma ThreeSextets(n: nat)
    requires n < 0x1_0000
    ensures n / 4096 < 16 && n / 4096 * 4096 + n / 64 % 64 * 64 + n % 64 == n
  {
    assert n / 64 == n / 4096 * 64 + n / 64 % 64;
  }

  lemma FourSextets(n: nat)
    requires n < 0x11_0000
    ensures n / 262144 < 5
    ensures n / 262144 * 262144 + n / 4096 % 64 * 4096 + n / 64 % 64 * 64 + n % 64 == n
  {
    assert n / 64 == n / 4096 * 64 + n / 64 % 64;
    assert n / 4096 == n / 262144 * 64 + n / 4096 % 64;
  }

  /** How many bytes a UTF-8 sequence starting with `lead` occupies. */
  function Utf8Width(lead: nat): nat
  {
    if lead < 0x80 then 1 else if lead < 0xE0 then 2 else if lead < 0xF0 then 3 else 4
  }

  /** The code point a well-formed UTF-8 sequence of one character denotes. */
  function DecodeUtf8Char(bytes: seq<nat>): int
    requires 1 <= |bytes| <= 4
  {
    if |bytes| == 1 then bytes[0]
    else if |bytes| == 2 then (bytes[0] as int - 0xC0) * 64 + (bytes[1] as int - 0x80)
    else if |bytes| == 3 then (bytes[0] as int - 0xE0) * 4096 + (bytes[1] as int - 0x80) * 64 + (bytes[2] as int - 0x80)
    else (bytes[0] as int - 0xF0) * 262144 + (bytes[1] as int - 0x80) * 4096 + (bytes[2] as int - 0x80) * 64 + (bytes[3] as int - 0x80)
  }

  /** The UTF-8 encoding of a string: what bcryptjs hashes. */
  function Utf8(s: string): (bytes: seq<nat>)
    ensures |s| <= |bytes|
    ensures |bytes| == 0 ==> s == ""
  {
    if s == "" then [] else Utf8Char(s[0]) + Utf8(s[1..])
  }

  /** Encoding a concatenation concatenates the encodings. */
  lemma {:induction false} Utf8Append(a: string, b: string)
    ensures Utf8(a + b) == Utf8(a) + Utf8(b)
    decreases |a|
  {
    if a != "" {
      assert (a + b)[0] == a[0] && (a + b)[1..] == a[1..] + b;
      Utf8Append(a[1..], b);
    } else {
      assert a + b == b;
    }
  }

  /** Different strings have different encodings. */
  lemma {:induction false} Utf8Injective(a: string, b: string)
    ensures Utf8(a) == Utf8(b) ==> a == b
    decreases |a|
  {
    if Utf8(a) == Utf8(b) && a != "" && b != "" {
      var x, y := Utf8Char(a[0]), Utf8Char(b[0]);
      assert Utf8(a)[..|x|] == x && Utf8(b)[..|y|] == y;
      assert x[0] == Utf8(a)[0] == y[0];
      assert x == y;
      assert a[0] == b[0];
      assert Utf8(a[1..]) == Utf8(a)[|x|..] == Utf8(b[1..]);
      Utf8Injective(a[1..], b[1..]);
      assert a == [a[0]] + a[1..] && b == [b[0]] + b[1..];
    }
  }

  /** bcrypt's key: only the first 72 bytes of the encoded password take part. */
  const BcryptKeyBytes: nat := 72

  function KeyBytes(password: string): (key: seq<nat>)
    ensures |key| <= BcryptKeyBytes
    ensures |Utf8(password)| <= BcryptKeyBytes ==> key == Utf8(password)
    ensures |Utf8(password)| >= BcryptKeyBytes ==> key == Utf8(password)[..BcryptKeyBytes]
  {
    var bytes := Utf8(password);
    if |bytes| <= BcryptKeyBytes then bytes else bytes[..BcryptKeyBytes]
  }

  /** An idealised bcrypt digest. The salt is random per call, so two hashes of the
      same password differ. */
  datatype PasswordHash = Bcrypt(rounds: nat, salt: nat, preimage: string)

  /** `bcrypt.compare(password, hash)`: the candidate's key must equal the key the
      digest was made from. A password matches its own digest, and for passwords of at
      most 72 encoded bytes the comparison is exact. */
  function Matches(password: string, h: PasswordHash): (ok: bool)
    ensures password == h.preimage ==> ok
    ensures |Utf8(password)| <= BcryptKeyBytes && |Utf8(h.preimage)| <= BcryptKeyBytes ==>
      (ok <==> password == h.preimage)
  {
    Utf8Injective(password, h.preimage);
    KeyBytes(password) == KeyBytes(h.preimage)
  }

  /** `bcrypt.hash(password, 10)` with the salt drawn by the library. */
  function Hash(password: string, salt: nat): (h: PasswordHash)
    ensures Matches(password, h) && h.rounds == SaltRounds
    ensures forall candidate | |Utf8(candidate)| <= BcryptKeyBytes && |Utf8(password)| <= BcryptKeyBytes ::
      Matches(candidate, h) <==> candidate == password
  {
    Bcrypt(SaltRounds, salt, password)
  }

  /** Passwords that agree on their first 72 encoded bytes match each other's digests,
      whatever follows. */
  lemma LongPasswordsCollide(prefix: string, tail1: string, tail2: string, salt: nat)
    requires |Utf8(prefix)| >= BcryptKeyBytes
    ensures Matches(prefix + tail1, Hash(prefix + tail2, salt))
  {
    Utf8Append(prefix, tail1);
    Utf8Append(prefix, tail2);
    var p := Utf8(prefix);
    var a, b := Utf8(prefix + tail1), Utf8(prefix + tail2);
    assert a[..BcryptKeyBytes] == p[..BcryptKeyBytes] by {
      assert a == p + Utf8(tail1);
    }
    assert b[..BcryptKeyBytes] == p[..BcryptKeyBytes] by {
      assert b == p + Utf8(tail2);
    }
    assert KeyBytes(prefix + tail1) == KeyBytes(prefix + tail2);
    assert Hash(prefix + tail2, salt).preimage == prefix + tail2;
  }

  /** `expiresIn: "7d"`, in the seconds jsonwebtoken counts in. */
  const TokenLifetimeSeconds: nat := 7 * 24 * 60 * 60

  /** The payload the server signs: `{ id: user._id }`. A token signed elsewhere with
      the same key may lack the id. */
  datatype Claims = Claims(id: Option<Id>)

  /** A cookie value: either a JWT (its payload, the key it was signed with and its
      `exp` in whole seconds) or any other string. */
  datatype Token = Jwt(claims: Claims, key: string, exp: nat) | Opaque(raw: string)

  /** `jwt.sign({ id }, secret, { expiresIn: "7d" })` at time `now` (milliseconds):
      `iat` is `now` in whole seconds and `exp` lies seven days after it. jsonwebtoken
      throws for an empty key, which callers rule out. */
  function Sign(secret: string, id: Id, now: nat): (t: Token)
    requires secret != ""
    ensures t.Jwt? && t.claims.id == Some(id) && t.key == secret
    ensures t.exp * 1000 <= now + TokenLifetimeSeconds * 1000 < (t.exp + 1) * 1000
  {
    Jwt(Claims(Some(id)), secret, now / 1000 + TokenLifetimeSeconds)
  }

  /** `jwt.verify(token, secret)`: succeeds with the payload when a key is configured,
      the token was signed with it, and the current second is before `exp`. Every
      other case is the library's thrown error. */
  function Verify(secret: Option<string>, token: Token, now: nat): (r: Option<Claims>)
    ensures r.Some? <==> Present(secret) && token.Jwt? && token.key == secret.value && now < token.exp * 1000
    ensures r.Some? ==> r.value == token.claims
  {
    if Present(secret) && token.Jwt? && token.key == secret.value && now / 1000 < token.exp then
      Some(token.claims)
    else
      None
  }

  /** A freshly signed token verifies to its own id for just under seven days (the
      expiry is rounded to whole seconds), and never again after seven days. */
  lemma SignVerifyRoundTrip(secret: string, id: Id, issued: nat, now: nat)
    requires secret != ""
    ensures now < issued + TokenLifetimeSeconds * 1000 - 999 ==>
      Verify(Some(secret), Sign(secret, id, issued), now) == Some(Claims(Some(id)))
    ensures now >= issued + TokenLifetimeSeconds * 1000 ==>
      Verify(Some(secret), Sign(secret, id, issued), now) == None
  {
    var t := Sign(secret, id, issued);
    if now < issued + TokenLifetimeSeconds * 1000 - 999 {
      assert now / 1000 < t.exp by {
        assert now < (t.exp) * 1000;
      }
    }
  }

  /** A token is only ever accepted under the key that signed it. */
  lemma VerifyNeedsSigningKey(secret: string, other: string, id: Id, issued: nat, now: nat)
    requires secret != "" && other != secret
    ensures Verify(Some(other), Sign(secret, id, issued), now) == None
  {
  }
}

=== FILE: http.dfy ===
/** The shape of every reply the server sends: `res.status(code).json({ success,
    message, data | userData })`, plus what the reply does to the `token` cookie. */
module Http {
  import opened Base
  import opened Crypto

  const StatusOk: nat := 200
  const StatusCreated: nat := 201
  const StatusBadRequest: nat := 400
  const StatusUnauthorized: nat := 401
  const StatusNotFound: nat := 404
  const StatusConflict: nat := 409
  const StatusInternalError: nat := 500
  const StatusUnavailable: nat := 503

  /** The exceptions a handler's `catch` turns into a 500 carrying `error.message`. */
  datatype Fault =
    | RequiredPathMissing   // Mongoose validation of a required path
    | SignWithoutSecret     // jwt.sign with no key configured
    | OtpToStringOfMissing  // `otp.toString()` on an undefined or null otp
    | HashOfMissing         // bcrypt.hash on an undefined password
    | MailNotDelivered      // a rejected `await transporter.sendMail`

  /** A fixed message written in the handler, or the message of a caught exception. */
  datatype Message = Says(text: string) | Thrown(fault: Fault)

  /** `publicUserResponse(user)`: the only user fields a reply may carry. */
  datatype PublicUser = PublicUser(id: Id, name: string, email: string, isAccountVerified: bool)

  /** The reply's payload: none, registration's `data`, login's `data`, or is-auth's
      `userData`. */
  datatype Body =
    | NoBody
    | Created(id: Id, name: string, email: string)
    | Data(user: PublicUser)
    | UserData(user: PublicUser)

  /** `res.cookie("token", …)`, `res.clearCookie("token")`, or neither. */
  datatype CookieEffect = KeepCookie | SetToken(token: Token) | ClearToken

  datatype Response = Response(status: nat, success: bool, message: Option<Message>, body: Body, cookie: CookieEffect)

  /** A `success: false` reply with a fixed message and nothing else. */
  function Refuse(status: nat, text: string): (r: Response)
    ensures !r.success && r.body == NoBody && r.cookie == KeepCookie
  {
    Response(status, false, Some(Says(text)), NoBody, KeepCookie)
  }

  /** The `catch` block: a 500 carrying the exception's message. */
  function Crash(f: Fault): (r: Response)
    ensures !r.success && r.body == NoBody && r.cookie == KeepCookie
  {
    Response(StatusInternalError, false, Some(Thrown(f)), NoBody, KeepCookie)
  }
}

=== FILE: store_invariants.dfy ===
/** Invariants of the user collection that every request preserves: the schema's
    constraints and unique indexes, OTP fields that move in pairs, no live
    verification code on a verified account, records that are never deleted, and
    verification that is never undone. */
module StoreInvariants {
  import opened Base
  import opened Crypto
  import opened UserModel
  import opened Http
  import opened UserAuth
  import opened AuthController
  import opened AuthRouter

  lemma RegisterPreservesValid(cfg: Config, s: Store, now: nat, salt: nat,
                               name: Option<string>, email: Option<string>, password: Option<string>)
    requires ValidStore(s)
    ensures ValidStore(RegisterUser(cfg, s, now, salt, name, email, password).store)
  {
    var r := RegisterUser(cfg, s, now, salt, name, email, password);
    if r.response.status == StatusCreated {
      var u := NewUser(s.nextId, name.value, email.value, Hash(password.value, salt)).value;
      assert r.store == Insert(s, u);
      InsertPreservesValid(s, u);
    }
  }

  lemma SendVerifyOtpPreservesValid(s: Store, auth: AuthUser, now: nat, k: OtpIndex)
    requires ValidStore(s)
    ensures ValidStore(SendVerifyOtp(s, auth, now, k).store)
  {
    if SendVerifyOtp(s, auth, now, k).response.success {
      var key := FindById(s, auth.id).value;
      SavePreservesValid(s, key, s.users[key].(verifyOtp := Some(OtpCode(k)), verifyOtpExpiry := Some(OtpExpiryTime(now))));
    }
  }

  lemma VerifyEmailPreservesValid(s: Store, auth: AuthUser, now: nat, otp: Option<string>)
    requires ValidStore(s)
    ensures ValidStore(VerifyEmail(s, auth, now, otp).store)
  {
    if VerifyEmail(s, auth, now, otp).response.success {
      var key := FindById(s, auth.id).value;
      SavePreservesValid(s, key, s.users[key].(isAccountVerified := true, verifyOtp := None, verifyOtpExpiry := None));
    }
  }

  lemma SendResetOtpPreservesValid(s: Store, now: nat, k: OtpIndex, mailDelivered: bool, email: string)
    requires ValidStore(s)
    ensures ValidStore(SendResetOtp(s, now, k, mailDelivered, email).store)
  {
    if FindOne(s, email).Some? {
      var key := FindOne(s, email).value;
      SavePreservesValid(s, key, s.users[key].(resetOtp := Some(OtpCode(k)), resetOtpExpiry := Some(OtpExpiryTime(now))));
    }
  }

  lemma ResetPasswordPreservesValid(s: Store, now: nat, salt: nat, email: string,
                                    otp: Option<string>, newPassword: Option<string>)
    requires ValidStore(s)
    ensures ValidStore(ResetPassword(s, now, salt, email, otp, newPassword).store)
  {
    if ResetPassword(s, now, salt, email, otp, newPassword).response.success {
      var key := FindOne(s, email).value;
      SavePreservesValid(s, key, s.users[key].(password := Hash(newPassword.value, salt), resetOtp := None, resetOtpExpiry := None));
    }
  }

  /** Every request keeps the collection valid: unique normalised emails and ids,
      required paths present, each OTP paired with its expiry, stored codes of six
      digits, and no verification code on a verified account. */
  lemma HandlePreservesValid(cfg: Config, s: Store, env: Env, cookie: Option<Token>, req: Request)
    requires ValidStore(s)
    ensures ValidStore(Handle(cfg, s, env, cookie, req).store)
  {
    match req
    case RegisterReq(name, email, password) => RegisterPreservesValid(cfg, s, env.now, env.salt, name, email, password);
    case SendResetOtpReq(email) => SendResetOtpPreservesValid(s, env.now, env.otpIndex, env.mailDelivered, email);
    case ResetPasswordReq(email, otp, newPassword) => ResetPasswordPreservesValid(s, env.now, env.salt, email, otp, newPassword);
    case SendVerifyOtpReq =>
      var d := Authenticate(cfg.jwtSecret, cookie, env.now);
      if d.Continue? { SendVerifyOtpPreservesValid(s, d.user, env.now, env.otpIndex); }
    case VerifyEmailReq(otp) =>
      var d := Authenticate(cfg.jwtSecret, cookie, env.now);
      if d.Continue? { VerifyEmailPreservesValid(s, d.user, env.now, otp); }
    case _ =>
  }

  /** How one record may evolve across a request: it keeps its key, id, name and
      email, and a verified account stays verified. */
  predicate Evolves(before: Store, after: Store)
  {
    forall e | e in before.users ::
      && e in after.users
      && after.users[e].id == before.users[e].id
      && after.users[e].name == before.users[e].name
      && after.users[e].email == before.users[e].email
      && (before.users[e].isAccountVerified ==> after.users[e].isAccountVerified)
  }

  lemma RegisterEvolves(cfg: Config, s: Store, now: nat, salt: nat,
                        name: Option<string>, email: Option<string>, password: Option<string>)
    ensures Evolves(s, RegisterUser(cfg, s, now, salt, name, email, password).store)
  {
  }

  lemma ProtectedEvolves(cfg: Config, s: Store, env: Env, cookie: Option<Token>, req: Request)
    requires IsProtected(req)
    ensures Evolves(s, Handle(cfg, s, env, cookie, req).store)
  {
    match Authenticate(cfg.jwtSecret, cookie, env.now)
    case Reject(_) =>
    case Continue(user) =>
      if req.SendVerifyOtpReq? {
        SendVerifyOtpEvolves(s, user, env.now, env.otpIndex);
      } else if req.VerifyEmailReq? {
        VerifyEmailEvolves(s, user, env.now, req.code);
      }
  }

  /** Saving a document that keeps its id, name and email and does not un-verify the
      account is an evolution of the collection. */
  lemma SaveEvolves(s: Store, key: string, u: User)
    requires key in s.users
    requires u.id == s.users[key].id && u.name == s.users[key].name && u.email == s.users[key].email
    requires s.users[key].isAccountVerified ==> u.isAccountVerified
    ensures Evolves(s, Save(s, key, u))
  {
    var s' := Save(s, key, u);
    forall e | e in s.users
      ensures e in s'.users && s'.users[e].id == s.users[e].id && s'.users[e].name == s.users[e].name
      ensures s'.users[e].email == s.users[e].email
      ensures s.users[e].isAccountVerified ==> s'.users[e].isAccountVerified
    {
      if e != key {
        assert s'.users[e] == s.users[e];
      }
    }
  }

  lemma SendVerifyOtpEvolves(s: Store, auth: AuthUser, now: nat, k: OtpIndex)
    ensures Evolves(s, SendVerifyOtp(s, auth, now, k).store)
  {
    if SendVerifyOtp(s, auth, now, k).response.success {
      var key := FindById(s, auth.id).value;
      SaveEvolves(s, key, s.users[key].(verifyOtp := Some(OtpCode(k)), verifyOtpExpiry := Some(OtpExpiryTime(now))));
    }
  }

  lemma VerifyEmailEvolves(s: Store, auth: AuthUser, now: nat, otp: Option<string>)
    ensures Evolves(s, VerifyEmail(s, auth, now, otp).store)
  {
    if VerifyEmail(s, auth, now, otp).response.success {
      var key := FindById(s, auth.id).value;
      SaveEvolves(s, key, s.users[key].(isAccountVerified := true, verifyOtp := None, verifyOtpExpiry := None));
    }
  }

  lemma SendResetOtpEvolves(s: Store, now: nat, k: OtpIndex, mailDelivered: bool, email: string)
    ensures Evolves(s, SendResetOtp(s, now, k, mailDelivered, email).store)
  {
    if FindOne(s, email).Some? {
      var key := FindOne(s, email).value;
      SaveEvolves(s, key, s.users[key].(resetOtp := Some(OtpCode(k)), resetOtpExpiry := Some(OtpExpiryTime(now))));
    }
  }

  lemma ResetPasswordEvolves(s: Store, now: nat, salt: nat, email: string, otp: Option<string>, newPassword: Option<string>)
    ensures Evolves(s, ResetPassword(s, now, salt, email, otp, newPassword).store)
  {
    if ResetPassword(s, now, salt, email, otp, newPassword).response.success {
      var key := FindOne(s, email).value;
      SaveEvolves(s, key, s.users[key].(password := Hash(newPassword.value, salt), resetOtp := None, resetOtpExpiry := None));
    }
  }

  lemma ResetEvolves(s: Store, env: Env, req: Request)
    requires req.SendResetOtpReq? || req.ResetPasswordReq?
    ensures req.SendResetOtpReq? ==>
      Evolves(s, SendResetOtp(s, env.now, env.otpIndex, env.mailDelivered, req.resetEmail).store)
    ensures req.ResetPasswordReq? ==>
      Evolves(s, ResetPassword(s, env.now, env.salt, req.resetEmail, req.otp, req.newPassword).store)
  {
    if req.SendResetOtpReq? {
      SendResetOtpEvolves(s, env.now, env.otpIndex, env.mailDelivered, req.resetEmail);
    } else {
      ResetPasswordEvolves(s, env.now, env.salt, req.resetEmail, req.otp, req.newPassword);
    }
  }

  /** No request deletes a user, renames one, changes an id, or un-verifies an
      account. */
  lemma HandleEvolves(cfg: Config, s: Store, env: Env, cookie: Option<Token>, req: Request)
    ensures Evolves(s, Handle(cfg, s, env, cookie, req).store)
  {
    if req.RegisterReq? {
      RegisterEvolves(cfg, s, env.now, env.salt, req.name, req.email, req.password);
    } else if IsProtected(req) {
      ProtectedEvolves(cfg, s, env, cookie, req);
    } else if req.SendResetOtpReq? || req.ResetPasswordReq? {
      ResetEvolves(s, env, req);
    }
  }

  /** The only way an account becomes verified is a successful email verification. */
  lemma OnlyVerifyEmailVerifies(cfg: Config, s: Store, env: Env, cookie: Option<Token>, req: Request, e: string)
    requires e in s.users && !s.users[e].isAccountVerified
    ensures var r := Handle(cfg, s, env, cookie, req);
      e in r.store.users && r.store.users[e].isAccountVerified ==> req.VerifyEmailReq? && r.response.success
  {
    if IsProtected(req) {
      ProtectedOnlyVerifyEmailVerifies(cfg, s, env, cookie, req, e);
    } else if req.RegisterReq? {
      assert Handle(cfg, s, env, cookie, req) == RegisterUser(cfg, s, env.now, env.salt, req.name, req.email, req.password);
      RegisterDoesNotVerify(cfg, s, env.now, env.salt, req.name, req.email, req.password, e);
    } else if req.LoginReq? {
      assert Handle(cfg, s, env, cookie, req) == LoginUser(cfg, s, env.now, req.email, req.password);
    } else if req.SendResetOtpReq? {
      assert Handle(cfg, s, env, cookie, req) == SendResetOtp(s, env.now, env.otpIndex, env.mailDelivered, req.resetEmail);
      SendResetOtpDoesNotVerify(s, env.now, env.otpIndex, env.mailDelivered, req.resetEmail, e);
    } else {
      assert Handle(cfg, s, env, cookie, req) == ResetPassword(s, env.now, env.salt, req.resetEmail, req.otp, req.newPassword);
      ResetPasswordDoesNotVerify(s, env.now, env.salt, req.resetEmail, req.otp, req.newPassword, e);
    }
  }

  lemma RegisterDoesNotVerify(cfg: Config, s: Store, now: nat, salt: nat,
                              name: Option<string>, email: Option<string>, password: Option<string>, e: string)
    requires e in s.users && !s.users[e].isAccountVerified
    ensures var s' := RegisterUser(cfg, s, now, salt, name, email, password).store;
      e in s'.users && !s'.users[e].isAccountVerified
  {
  }

  lemma SendResetOtpDoesNotVerify(s: Store, now: nat, k: OtpIndex, mailDelivered: bool, email: string, e: string)
    requires e in s.users && !s.users[e].isAccountVerified
    ensures var s' := SendResetOtp(s, now, k, mailDelivered, email).store;
      e in s'.users && !s'.users[e].isAccountVerified
  {
    if FindOne(s, email).Some? {
      var key := FindOne(s, email).value;
      var s' := Save(s, key, s.users[key].(resetOtp := Some(OtpCode(k)), resetOtpExpiry := Some(OtpExpiryTime(now))));
      assert s'.users[e].isAccountVerified == s.users[e].isAccountVerified;
    }
  }

  lemma ResetPasswordDoesNotVerify(s: Store, now: nat, salt: nat, email: string,
                                   otp: Option<string>, newPassword: Option<string>, e: string)
    requires e in s.users && !s.users[e].isAccountVerified
    ensures var s' := ResetPassword(s, now, salt, email, otp, newPassword).store;
      e in s'.users && !s'.users[e].isAccountVerified
  {
    if ResetPassword(s, now, salt, email, otp, newPassword).response.success {
      var key := FindOne(s, email).value;
      var s' := Save(s, key, s.users[key].(password := Hash(newPassword.value, salt), resetOtp := None, resetOtpExpiry := None));
      assert s'.users[e].isAccountVerified == s.users[e].isAccountVerified;
    }
  }

  lemma ProtectedOnlyVerifyEmailVerifies(cfg: Config, s: Store, env: Env, cookie: Option<Token>, req: Request, e: string)
    requires IsProtected(req) && e in s.users && !s.users[e].isAccountVerified
    ensures var r := Handle(cfg, s, env, cookie, req);
      e in r.store.users && r.store.users[e].isAccountVerified ==> req.VerifyEmailReq? && r.response.success
  {
  }
}

=== FILE: text.dfy ===
/** The string operations the server relies on: `String.prototype.trim`, the
    lower-casing Mongoose applies to emails, the UTF-16 `length`, and
    `Number.prototype.toString` of naturals below 10^21. */
module Text {

  /** ECMAScript WhiteSpace and LineTerminator code points: what `trim` removes. */
  predicate IsJsSpace(c: char)
  {
    || c in {'\t', '\n', '\U{000B}', '\U{000C}', '\r', ' ', '\U{00A0}', '\U{1680}'}
    || c in {'\U{2028}', '\U{2029}', '\U{202F}', '\U{205F}', '\U{3000}', '\U{FEFF}'}
    || ('\U{2000}' <= c <= '\U{200A}')
  }

  predicate AllSpace(s: string)
  {
    forall i | 0 <= i < |s| :: IsJsSpace(s[i])
  }

  /** Neither end of `s` is whitespace. */
  predicate Trimmed(s: string)
  {
    |s| > 0 ==> !IsJsSpace(s[0]) && !IsJsSpace(s[|s| - 1])
  }

  /** Drops the leading whitespace run: the result is the suffix of `s` left after it. */
  function TrimStart(s: string): (r: string)
    ensures |r| <= |s| && r == s[|s| - |r|..]
    ensures AllSpace(s[..|s| - |r|])
    ensures |r| > 0 ==> !IsJsSpace(r[0])
  {
    if |s| > 0 && IsJsSpace(s[0]) then
      var r := TrimStart(s[1..]);
      assert s[1..][..|s[1..]| - |r|] == s[1..|s| - |r|];
      r
    else s
  }

  /** Drops the trailing whitespace run: the result is the prefix of `s` before it. */
  function TrimEnd(s: string): (r: string)
    ensures |r| <= |s| && r == s[..|r|]
    ensures AllSpace(s[|r|..])
    ensures |r| > 0 ==> !IsJsSpace(r[|r| - 1])
  {
    if |s| > 0 && IsJsSpace(s[|s| - 1]) then
      var r := TrimEnd(s[..|s| - 1]);
      assert s[..|s| - 1][|r|..] == s[|r|..|s| - 1];
      r
    else s
  }

  /** `s.trim()`: the result is a slice of `s`, framed by whitespace only, with no
      whitespace at either end. */
  function Trim(s: string): (r: string)
    ensures Trimmed(r)
    ensures exists i, j | 0 <= i <= j <= |s| :: r == s[i..j] && AllSpace(s[..i]) && AllSpace(s[j..])
  {
    var t := TrimStart(s);
    var r := TrimEnd(t);
    TrimFrame(s, t, r);
    var i := |s| - |t|;
    assert r == s[i..i + |r|] && AllSpace(s[..i]) && AllSpace(s[i + |r|..]);
    r
  }

  /** The two halves of `Trim` compose: what is left is the slice between the
      leading and the trailing whitespace run. */
  lemma TrimFrame(s: string, t: string, r: string)
    requires |t| <= |s| && t == s[|s| - |t|..] && AllSpace(s[..|s| - |t|])
    requires |t| > 0 ==> !IsJsSpace(t[0])
    requires |r| <= |t| && r == t[..|r|] && AllSpace(t[|r|..])
    requires |r| > 0 ==> !IsJsSpace(r[|r| - 1])
    ensures |s| - |t| + |r| <= |s|
    ensures r == s[|s| - |t|..|s| - |t| + |r|]
    ensures AllSpace(s[..|s| - |t|]) && AllSpace(s[|s| - |t| + |r|..])
    ensures Trimmed(r)
  {
    var i := |s| - |t|;
    SuffixSlices(s, i, |r|);
    if |r| > 0 {
      assert r[0] == t[0];
    }
  }

  lemma SuffixSlices(s: string, i: nat, m: nat)
    requires i + m <= |s|
    ensures s[i..][..m] == s[i..i + m] && s[i..][m..] == s[i + m..]
  {
  }

  lemma TrimOfTrimmed(s: string)
    requires Trimmed(s)
    ensures Trim(s) == s
  {
  }

  lemma TrimIdempotent(s: string)
    ensures Trim(Trim(s)) == Trim(s)
  {
    TrimOfTrimmed(Trim(s));
  }

  /** `Trim` yields the empty string exactly for all-whitespace inputs. */
  lemma TrimEmptyIffAllSpace(s: string)
    ensures Trim(s) == "" <==> AllSpace(s)
  {
    if AllSpace(s) {
      TrimStartAllSpace(s);
      assert Trim(s) == TrimEnd("");
    } else {
      var k :| 0 <= k < |s| && !IsJsSpace(s[k]);
      TrimKeeps(s, k);
    }
  }

  lemma TrimKeeps(s: string, k: nat)
    requires k < |s| && !IsJsSpace(s[k])
    ensures |Trim(s)| > 0
  {
    TrimStartKeeps(s, k);
    var t := TrimStart(s);
    assert t[k - (|s| - |t|)] == s[k];
    TrimEndKeeps(t, k - (|s| - |t|));
    assert Trim(s) == TrimEnd(t);
  }

  lemma {:induction false} TrimStartAllSpace(s: string)
    requires AllSpace(s)
    ensures TrimStart(s) == ""
    decreases |s|
  {
    if |s| > 0 {
      TrimStartAllSpace(s[1..]);
    }
  }

  /** `TrimStart` never removes a non-space character. */
  lemma {:induction false} TrimStartKeeps(s: string, k: nat)
    requires k < |s| && !IsJsSpace(s[k])
    ensures |TrimStart(s)| >= |s| - k
    decreases k
  {
    if k > 0 && IsJsSpace(s[0]) {
      TrimStartKeeps(s[1..], k - 1);
    }
  }

  /** `TrimEnd` never removes a non-space character. */
  lemma {:induction false} TrimEndKeeps(s: string, k: nat)
    requires k < |s| && !IsJsSpace(s[k])
    ensures |TrimEnd(s)| > k
    decreases |s|
  {
    if k < |s| - 1 && IsJsSpace(s[|s| - 1]) {
      TrimEndKeeps(s[..|s| - 1], k);
    }
  }

  /** Lower-cases one character. Only ASCII letters are mapped. */
  function LowerChar(c: char): char
  {
    if 'A' <= c <= 'Z' then (c as int + 32) as char else c
  }

  lemma LowerCharKeepsSpace(c: char)
    ensures IsJsSpace(LowerChar(c)) <==> IsJsSpace(c)
  {
  }

  /** The `lowercase` setter: every upper-case ASCII letter mapped to its lower-case
      form, every other character kept where it is. */
  function Lower(s: string): (r: string)
    ensures |r| == |s| && IsLower(r)
  {
    seq(|s|, i requires 0 <= i < |s| => LowerChar(s[i]))
  }

  predicate IsLower(s: string)
  {
    forall i | 0 <= i < |s| :: !('A' <= s[i] <= 'Z')
  }

  /** Lower-casing shifts each upper-case ASCII letter to its lower-case form and keeps
      every other character, so a string with no upper-case ASCII letter is its own
      lower-case form. */
  lemma LowerMeaning(s: string)
    ensures forall i | 0 <= i < |s| :: !('A' <= s[i] <= 'Z') ==> Lower(s)[i] == s[i]
    ensures forall i | 0 <= i < |s| :: 'A' <= s[i] <= 'Z' ==> Lower(s)[i] as int == s[i] as int + 32
    ensures IsLower(s) ==> Lower(s) == s
  {
  }

  /** Lower-casing and trimming commute, so the order in which Mongoose applies the
      `lowercase` and `trim` setters does not matter. */
  lemma {:induction false} TrimLowerCommute(s: string)
    ensures Trim(Lower(s)) == Lower(Trim(s))
  {
    TrimStartLower(s);
    TrimEndLower(TrimStart(s));
  }

  lemma {:induction false} TrimStartLower(s: string)
    ensures TrimStart(Lower(s)) == Lower(TrimStart(s))
    decreases |s|
  {
    var l := Lower(s);
    if |s| > 0 {
      assert l[0] == LowerChar(s[0]);
      if IsJsSpace(s[0]) {
        LowerCharKeepsSpace(s[0]);
        assert l[1..] == Lower(s[1..]);
        TrimStartLower(s[1..]);
        calc {
          TrimStart(l);
          TrimStart(l[1..]);
          TrimStart(Lower(s[1..]));
          Lower(TrimStart(s[1..]));
        }
      } else {
        LowerCharKeepsSpace(s[0]);
        assert TrimStart(l) == l;
      }
    }
  }

  lemma {:induction false} TrimEndLower(s: string)
    ensures TrimEnd(Lower(s)) == Lower(TrimEnd(s))
    decreases |s|
  {
    var l := Lower(s);
    if |s| > 0 {
      assert l[|s| - 1] == LowerChar(s[|s| - 1]);
      if IsJsSpace(s[|s| - 1]) {
        LowerCharKeepsSpace(s[|s| - 1]);
        assert l[..|l| - 1] == Lower(s[..|s| - 1]);
        TrimEndLower(s[..|s| - 1]);
        calc {
          TrimEnd(l);
          TrimEnd(l[..|l| - 1]);
          TrimEnd(Lower(s[..|s| - 1]));
          Lower(TrimEnd(s[..|s| - 1]));
        }
      } else {
        LowerCharKeepsSpace(s[|s| - 1]);
        assert TrimEnd(l) == l;
      }
    }
  }

  /** `s.length` in JavaScript: UTF-16 code units, so a character outside the Basic
      Multilingual Plane counts twice. */
  function JsLength(s: string): (n: nat)
    ensures |s| <= n <= 2 * |s|
    ensures n == |s| <==> forall i | 0 <= i < |s| :: s[i] < '\U{10000}'
  {
    if |s| == 0 then 0
    else
      assert forall i | 1 <= i < |s| :: s[i] == s[1..][i - 1];
      (if s[0] < '\U{10000}' then 1 else 2) + JsLength(s[1..])
  }

  /** Code units add up over concatenation: one per character below U+10000 and two
      per character above, wherever it sits. */
  lemma {:induction false} JsLengthAppend(a: string, b: string)
    ensures JsLength(a + b) == JsLength(a) + JsLength(b)
    decreases |a|
  {
    if a == "" {
      assert a + b == b;
    } else {
      assert (a + b)[0] == a[0] && (a + b)[1..] == a[1..] + b;
      JsLengthAppend(a[1..], b);
    }
  }

  predicate IsDigit(c: char)
  {
    '0' <= c <= '9'
  }

  predicate AllDigits(s: string)
  {
    forall i | 0 <= i < |s| :: IsDigit(s[i])
  }

  function DigitChar(d: nat): (c: char)
    requires d < 10
  {
    (d + '0' as int) as char
  }

  /** `n.toString()` for a non-negative integer below 10^21 (from there on JavaScript
      prints exponent notation); the server prints only six-digit codes. Decimal
      digits, no leading zero. */
  function NatToDecimal(n: nat): (r: string)
    ensures |r| > 0 && AllDigits(r)
    ensures r[0] == '0' ==> n == 0
    decreases n
  {
    if n < 10 then [DigitChar(n)] else NatToDecimal(n / 10) + [DigitChar(n % 10)]
  }

  /** The number a string of decimal digits denotes. */
  function DecimalValue(s: string): nat
    requires AllDigits(s)
  {
    if |s| == 0 then 0 else DecimalValue(s[..|s| - 1]) * 10 + (s[|s| - 1] as int - '0' as int)
  }

  /** Reading back the decimal text of `n` gives `n`. */
  lemma {:induction false} DecimalRoundTrip(n: nat)
    ensures DecimalValue(NatToDecimal(n)) == n
    decreases n
  {
    if n >= 10 {
      var r := NatToDecimal(n);
      assert r[..|r| - 1] == NatToDecimal(n / 10);
      DecimalRoundTrip(n / 10);
    }
  }

  /** Distinct numbers have distinct decimal texts. */
  lemma DecimalInjective(m: nat, n: nat)
    ensures NatToDecimal(m) == NatToDecimal(n) ==> m == n
  {
    DecimalRoundTrip(m);
    DecimalRoundTrip(n);
  }

  /** 10^k, the bound on numbers of `k` significant digits. */
  function Pow10(k: nat): (p: nat)
    ensures p >= 1
  {
    if k == 0 then 1 else 10 * Pow10(k - 1)
  }

  /** A number with `k` significant digits prints as exactly `k` characters. */
  lemma {:induction false} DecimalLength(n: nat, k: nat)
    requires 1 <= k && Pow10(k - 1) <= n < Pow10(k)
    ensures |NatToDecimal(n)| == k
    decreases k
  {
    if k > 1 {
      DecimalLength(n / 10, k - 1);
    }
  }
}

=== FILE: user_auth.dfy ===
/** The `userAuth` middleware guarding the protected routes: it reads the `token`
    cookie, verifies it, and either answers 401 or attaches `{ id }` to the request
    and passes control on. It never touches the user collection, which is why it
    takes no store. */
module UserAuth {
  import opened Base
  import opened Crypto
  import opened Http

  /** `req.user` as the middleware sets it: the id and nothing else. */
  datatype AuthUser = AuthUser(id: Id)

  /** Either the middleware answered (and `next` is not called), or it calls `next`
      once with `req.user` set. */
  datatype Decision = Reject(response: Response) | Continue(user: AuthUser)

  /** `req.cookies?.token` is truthy: present and not the empty string. */
  predicate HasToken(cookie: Option<Token>)
  {
    cookie.Some? && cookie.value != Opaque("")
  }

  function Authenticate(secret: Option<string>, cookie: Option<Token>, now: nat): (d: Decision)
    ensures d.Reject? ==> d.response.status == StatusUnauthorized && !d.response.success
    ensures d.Reject? ==> d.response.body == NoBody && d.response.cookie == KeepCookie
    ensures !HasToken(cookie) ==> d == Reject(Refuse(StatusUnauthorized, "Authentication required"))
    ensures HasToken(cookie) && Verify(secret, cookie.value, now).None? ==>
      d == Reject(Refuse(StatusUnauthorized, "Invalid or expired token"))
    ensures HasToken(cookie) && Verify(secret, cookie.value, now) == Some(Claims(None)) ==>
      d == Reject(Refuse(StatusUnauthorized, "Invalid token"))
    ensures d.Continue? <==> HasToken(cookie) && exists id :: Verify(secret, cookie.value, now) == Some(Claims(Some(id)))
    ensures d.Continue? ==> Verify(secret, cookie.value, now) == Some(Claims(Some(d.user.id)))
  {
    if !HasToken(cookie) then
      Reject(Refuse(StatusUnauthorized, "Authentication required"))
    else
      match Verify(secret, cookie.value, now)
      case None => Reject(Refuse(StatusUnauthorized, "Invalid or expired token"))
      case Some(claims) =>
        if claims.id.None? then Reject(Refuse(StatusUnauthorized, "Invalid token"))
        else Continue(AuthUser(claims.id.value))
  }

  /** A session token the server issued is let through, with its own id, for just
      under seven days. */
  lemma AcceptsIssuedToken(secret: string, id: Id, issued: nat, now: nat)
    requires secret != "" && now < issued + TokenLifetimeSeconds * 1000 - 999
    ensures Authenticate(Some(secret), Some(Sign(secret, id, issued)), now) == Continue(AuthUser(id))
  {
    SignVerifyRoundTrip(secret, id, issued, now);
  }

  /** With no signing key configured, every request to a protected route is refused. */
  lemma NoSecretRejectsAll(secret: Option<string>, cookie: Option<Token>, now: nat)
    requires !Present(secret)
    ensures Authenticate(secret, cookie, now).Reject?
  {
  }
}

=== FILE: user_model.dfy ===
/** The `User` schema and the collection that holds its documents: field shapes,
    required paths, defaults, email normalisation and the unique email index. */
module UserModel {
  import opened Base
  import opened Text
  import opened Crypto

  /** One stored user document. An OTP and its expiry are separate nullable paths,
      as in the schema; `WellFormed` states that they move together. Expiries are
      absolute times in milliseconds. */
  datatype User = User(
    id: Id,
    name: string,
    email: string,
    password: PasswordHash,
    isAccountVerified: bool,
    verifyOtp: Option<string>,
    verifyOtpExpiry: Option<nat>,
    resetOtp: Option<string>,
    resetOtpExpiry: Option<nat>)

  /** The `lowercase` and `trim` setters of the email path. Mongoose also runs them on
      query filters, so every lookup by email uses the normalised form. */
  function NormalizeEmail(email: string): (n: string)
    ensures IsLower(n) && Trimmed(n)
    ensures exists i, j | 0 <= i <= j <= |email| ::
      n == Lower(email[i..j]) && AllSpace(email[..i]) && AllSpace(email[j..])
  {
    NormalizeEmailFrame(email);
    Trim(Lower(email))
  }

  /** The normal form is the lower-cased slice left once the surrounding whitespace
      is cut. */
  lemma NormalizeEmailFrame(email: string)
    ensures exists i, j | 0 <= i <= j <= |email| ::
      Trim(Lower(email)) == Lower(email[i..j]) && AllSpace(email[..i]) && AllSpace(email[j..])
  {
    TrimLowerCommute(email);
    var i, j :| 0 <= i <= j <= |email| && Trim(email) == email[i..j] && AllSpace(email[..i]) && AllSpace(email[j..]);
    assert Trim(Lower(email)) == Lower(email[i..j]);
  }

  /** Normalising an email twice is the same as normalising it once. */
  lemma NormalizeEmailMeaning(email: string)
    ensures NormalizeEmail(NormalizeEmail(email)) == NormalizeEmail(email)
  {
    NormalizedIsFixpoint(NormalizeEmail(email));
  }

  /** An email that is already lower-case and trimmed is its own normal form. */
  lemma NormalizedIsFixpoint(email: string)
    requires IsLower(email) && Trimmed(email)
    ensures NormalizeEmail(email) == email
  {
    LowerMeaning(email);
    TrimOfTrimmed(email);
  }

  /** A stored OTP: `otp.toString()` of a six-digit number. */
  predicate IsOtpCode(s: string)
  {
    |s| == 6 && AllDigits(s)
  }

  /** The values the schema gives a new document: unverified, both OTP channels clear. */
  predicate HasDefaults(u: User)
  {
    && !u.isAccountVerified
    && u.verifyOtp == None && u.verifyOtpExpiry == None
    && u.resetOtp == None && u.resetOtpExpiry == None
  }

  /** What every stored document satisfies: required paths present after their
      setters (a trimmed name; a trimmed, lower-case email), each OTP set together with its expiry, stored codes of six digits, and
      no live verification code on a verified account. */
  predicate WellFormed(u: User)
  {
    && u.name != "" && Trimmed(u.name)
    && u.email != "" && IsLower(u.email) && Trimmed(u.email)
    && (u.verifyOtp.Some? <==> u.verifyOtpExpiry.Some?)
    && (u.resetOtp.Some? <==> u.resetOtpExpiry.Some?)
    && (u.verifyOtp.Some? ==> IsOtpCode(u.verifyOtp.value))
    && (u.resetOtp.Some? ==> IsOtpCode(u.resetOtp.value))
    && (u.isAccountVerified ==> u.verifyOtp.None?)
  }

  /** Why `UserModel.create` rejects a document: a required path is empty. */
  datatype SchemaError = NameRequired | EmailRequired

  /** Builds a document the way `UserModel.create` does: run the setters, reject an
      empty required path, fill in the defaults. */
  function NewUser(id: Id, name: string, email: string, password: PasswordHash): (r: Result<User, SchemaError>)
    ensures r.Ok? <==> !AllSpace(name) && NormalizeEmail(email) != ""
    ensures r.Ok? ==> WellFormed(r.value) && HasDefaults(r.value)
    ensures r.Ok? ==> r.value.id == id && r.value.password == password
    ensures r.Ok? ==> r.value.name == Trim(name) && r.value.email == NormalizeEmail(email)
  {
    TrimEmptyIffAllSpace(name);
    TrimIdempotent(name);
    NormalizeEmailMeaning(email);
    var n := Trim(name);
    var e := NormalizeEmail(email);
    if n == "" then Err(NameRequired)
    else if e == "" then Err(EmailRequired)
    else Ok(User(id, n, e, password, false, None, None, None, None))
  }

  /** The collection: documents keyed by their (unique, normalised) email, the `_id`
      index, and the next fresh id. */
  datatype Store = Store(users: map<string, User>, ids: map<Id, string>, nextId: Id)

  const EmptyStore: Store := Store(map[], map[], 0)

  /** The collection's invariants: each document sits under its own email, is well
      formed, has an id below `nextId`, and the `_id` index maps exactly the stored
      ids to their documents. */
  predicate ValidStore(s: Store)
  {
    && (forall e | e in s.users ::
          && s.users[e].email == e && WellFormed(s.users[e])
          && s.users[e].id < s.nextId
          && s.users[e].id in s.ids && s.ids[s.users[e].id] == e)
    && (forall id | id in s.ids :: s.ids[id] in s.users && s.users[s.ids[id]].id == id)
  }

  lemma EmptyStoreValid()
    ensures ValidStore(EmptyStore)
  {
  }

  /** No two documents share a normalised email, and none share an id. */
  lemma StoreUniqueness(s: Store, e1: string, e2: string)
    requires ValidStore(s) && e1 in s.users && e2 in s.users
    ensures NormalizeEmail(s.users[e1].email) == NormalizeEmail(s.users[e2].email) ==> e1 == e2
    ensures s.users[e1].id == s.users[e2].id ==> e1 == e2
  {
    var u1, u2 := s.users[e1], s.users[e2];
    assert u1.email == e1 && WellFormed(u1) && s.ids[u1.id] == e1;
    assert u2.email == e2 && WellFormed(u2) && s.ids[u2.id] == e2;
    NormalFormsDiffer(e1, e2);
  }

  lemma NormalFormsDiffer(a: string, b: string)
    requires IsLower(a) && Trimmed(a) && IsLower(b) && Trimmed(b)
    ensures NormalizeEmail(a) == NormalizeEmail(b) ==> a == b
  {
    NormalizedIsFixpoint(a);
    NormalizedIsFixpoint(b);
  }

  /** `UserModel.findOne({ email })`: the key of the document whose stored email is
      the normalised query, if any. */
  function FindOne(s: Store, email: string): (key: Option<string>)
    ensures key.Some? ==> key.value in s.users
    ensures ValidStore(s) ==> (key.Some? <==> exists e | e in s.users :: s.users[e].email == NormalizeEmail(email))
    ensures ValidStore(s) && key.Some? ==> s.users[key.value].email == NormalizeEmail(email)
  {
    var e := NormalizeEmail(email);
    if e in s.users then Some(e) else None
  }

  /** `UserModel.findById(id)`, through the `_id` index. */
  function FindById(s: Store, id: Id): (key: Option<string>)
    ensures key.Some? ==> key.value in s.users && s.users[key.value].id == id
    ensures ValidStore(s) && (exists e | e in s.users :: s.users[e].id == id) ==> key.Some?
  {
    if id in s.ids && s.ids[id] in s.users && s.users[s.ids[id]].id == id then Some(s.ids[id]) else None
  }

  /** Inserts a newly created document under a fresh id and email. */
  function Insert(s: Store, u: User): (s': Store)
    requires u.id == s.nextId
    ensures s'.nextId > s.nextId
    ensures u.email in s'.users && s'.users[u.email] == u
    ensures forall e | e in s.users && e != u.email :: e in s'.users && s'.users[e] == s.users[e]
    ensures s'.users.Keys == s.users.Keys + {u.email}
  {
    Store(s.users[u.email := u], s.ids[u.id := u.email], s.nextId + 1)
  }

  /** Creating a well-formed document under a new email keeps the store valid, and
      adds exactly one document. */
  lemma InsertPreservesValid(s: Store, u: User)
    requires ValidStore(s) && u.id == s.nextId && u.email !in s.users && WellFormed(u)
    ensures ValidStore(Insert(s, u))
    ensures |Insert(s, u).users| == |s.users| + 1
  {
    InsertKeepsDocuments(s, u);
    InsertKeepsIdIndex(s, u);
    InsertAddsOne(s, u);
  }

  lemma InsertKeepsDocuments(s: Store, u: User)
    requires ValidStore(s) && u.id == s.nextId && u.email !in s.users && WellFormed(u)
    ensures forall e | e in Insert(s, u).users ::
      && Insert(s, u).users[e].email == e && WellFormed(Insert(s, u).users[e])
      && Insert(s, u).users[e].id < Insert(s, u).nextId
      && Insert(s, u).users[e].id in Insert(s, u).ids
      && Insert(s, u).ids[Insert(s, u).users[e].id] == e
  {
    var s' := Insert(s, u);
    forall e | e in s'.users
      ensures s'.users[e].email == e && WellFormed(s'.users[e]) && s'.users[e].id < s'.nextId
      ensures s'.users[e].id in s'.ids && s'.ids[s'.users[e].id] == e
    {
      if e != u.email {
        assert s'.users[e] == s.users[e];
        assert s.users[e].id != u.id;
      }
    }
  }

  lemma InsertKeepsIdIndex(s: Store, u: User)
    requires ValidStore(s) && u.id == s.nextId && u.email !in s.users
    ensures forall id | id in Insert(s, u).ids ::
      Insert(s, u).ids[id] in Insert(s, u).users && Insert(s, u).users[Insert(s, u).ids[id]].id == id
  {
    var s' := Insert(s, u);
    forall id | id in s'.ids
      ensures s'.ids[id] in s'.users && s'.users[s'.ids[id]].id == id
    {
      if id != u.id {
        assert s'.ids[id] == s.ids[id] && s.ids[id] != u.email;
      }
    }
  }

  lemma InsertAddsOne(s: Store, u: User)
    requires u.id == s.nextId && u.email !in s.users
    ensures |Insert(s, u).users| == |s.users| + 1
  {
  }

  /** `user.save()` of a document read from the store: it replaces the document under
      its key and touches nothing else. */
  function Save(s: Store, key: string, u: User): (s': Store)
    requires key in s.users
    ensures s'.users.Keys == s.users.Keys && s'.users[key] == u
    ensures forall e | e in s.users && e != key :: s'.users[e] == s.users[e]
    ensures s'.ids == s.ids && s'.nextId == s.nextId
  {
    Store(s.users[key := u], s.ids, s.nextId)
  }

  /** Saving a well-formed document that keeps its id and email keeps the store valid. */
  lemma SavePreservesValid(s: Store, key: string, u: User)
    requires ValidStore(s) && key in s.users
    requires u.id == s.users[key].id && u.email == key && WellFormed(u)
    ensures ValidStore(Save(s, key, u))
  {
    var s' := Save(s, key, u);
    forall e | e in s'.users
      ensures s'.users[e].email == e && WellFormed(s'.users[e]) && s'.users[e].id < s'.nextId
      ensures s'.users[e].id in s'.ids && s'.ids[s'.users[e].id] == e
    {
      if e != key {
        assert s'.users[e] == s.users[e];
      }
    }
  }
}
